=== FILE: README.md ===
# Netbyte test server, modelled in Dafny

Netbyte's test server (`netbyte/testserver.py`) gives a network client a small
scripted conversation over one TCP connection:

- it sends a banner, `Netbyte Test Server v<VERSION>`;
- it runs three sub-tests, one after the other: **Echo**, **Hex** and **Byte Count**;
- if bytes are left over after the last sub-test, it reports them;
- it sends its closing message and closes the socket.

Each sub-test (`run_test`) runs the same way:

- It sends a header, then loops. On each pass it sends the prompt, if there is one.
- It takes the message handed on by the previous sub-test, or else reads up to 4096 bytes.
- It adds the chunk to a pending buffer.
- When the chunk holds a newline, it cuts the joined buffer into lines. Each line goes to the sub-test's handler.
- This stops at the first line that matches `^\s*end\s*`, case ignored. The bytes after that line are handed on to the next sub-test when the check at line 87 keeps them (see below).
- An empty read means the client has gone (`DisconnectedError`).

The three handlers reply as follows:

- **Echo** sends the line back.
- **Hex** sends `n` random bytes, the last of them a newline. `n` is the number the client typed. If that is not a number above 0, it first sends a warning and uses 10.
- **Byte Count** sends `Received <len> bytes.`, where the length counts the newline.

The project has one module per concern:

| file | module | what it holds |
|---|---|---|
| `text.dfy` | `Text` | the Python 2 string operations the server uses: `find`, `''.join`, `'%d' %` and `int()` |
| `termination.dfy` | `Termination` | the end pattern, as a predicate, with its characterisation |
| `framing.dfy` | `Framing` | the inner line loop and the carry-over check after it, as functions on values, and what they guarantee |
| `net.dfy` | `Net` | the connection, as a class over scripted peer writes, and the random source |
| `handlers.dfy` | `Handlers` | each handler's reply as a function, and each handler as a method that sends it |
| `runner.dfy` | `Runner` | `run_test` as methods with loops, proved equal to the functional `TestRun` |
| `session.dfy` | `Session` | `handle_connection` as a method, proved equal to the functional `Converse`, with what a session promises |

How the model treats the outside world:

- The peer is modelled as the list of writes it will make, in order.
- A `recv(4096)` returns up to 4096 bytes of the next write. An empty write stands for the peer closing the connection.
- `os.urandom` is an arbitrary byte stream `noise`, together with a count of the bytes already drawn.
- `VERSION` is a parameter.

### How the carry-over check behaves

Line 87 decides whether bytes after the last newline are kept. It compares
`start_i`, an index into the whole joined buffer, with `len(message) - 1`,
where `message` is only the last chunk read. The model follows this code
exactly. This has the following effects:

- A remainder of a single byte is dropped. After `hi\nx`, the `x` is lost (`Framing.DropsOneByteRemainder`).
- A longer remainder is also dropped when earlier chunks were buffered. After `ab`, then `c\nde`, the `de` is lost (`Framing.DropsRemainderAfterBufferedChunk`).
- Bytes handed on to the next sub-test are therefore never a single byte (`Session.LeftoverNeverOneByte`).
- The lines a sub-test handles can depend on how the client's bytes were split into reads. The model does not claim that the result is the same for every split.

## Model

Source paths are relative to the repository root. Every member below carries
the contract described. The definitions these contracts are stated against are
listed under "Definitions" after the table, with the protocol constants.
Members in neither list are proof steps and helper predicates, such as
`Framing.AllLines` or `Runner.Progress`. Among them are `Handlers.RepliesSnoc`,
`Runner.TurnDisconnects`, `Runner.TurnEnds` and `Runner.TurnGoesOn`: each
unfolds one definition by one step, for the proof of `Runner.RunTest`.

| member | source | states |
|---|---|---|
| Termination.EndLineIff | netbyte/testserver.py:30 | a line ends a sub-test exactly when some run of leading whitespace is followed by `end` in any letter case (both directions); the greedy check agrees with the regular expression's backtracking reading |
| Termination.EndLineIgnoresTail | netbyte/testserver.py:30 | the pattern is anchored only at the start: anything after a matching prefix keeps the line matching |
| Termination.EndLineNeedsLeadingE | netbyte/testserver.py:30 | a line whose first non-blank byte is not `e`/`E` never ends a sub-test |
| Termination.PrefixNotWord | netbyte/testserver.py:30 | `ending\n` ends a sub-test (prefix match) and `send\n` does not (match at position 0 only) |
| Termination.CaseAndBlanks | netbyte/testserver.py:30 | `end\n`, `END\t\n` and `  eNd\n` all end a sub-test |
| Text.Find | netbyte/testserver.py:76-85 | `find('\n', i)` gives -1 exactly when no newline occurs from `i` on, and otherwise the first newline at or after `i` |
| Text.ConcatSnoc | netbyte/testserver.py:68-75 | joining the buffered chunks after appending one gives the old join followed by that chunk |
| Text.NatToString | netbyte/testserver.py:124 | `%d` of a count is a non-empty string of decimal digits whose value is the count, with no leading zero |
| Text.StripLeadingSuffix | netbyte/testserver.py:109 | `int()`'s leading-whitespace strip removes only blanks, leaves a suffix and stops at a non-blank byte |
| Text.StripTrailingPrefix | netbyte/testserver.py:109 | `int()`'s trailing-whitespace strip removes only blanks, leaves a prefix and stops at a non-blank byte |
| Text.ParseIntOfNumeral | netbyte/testserver.py:109 | `int()` of a typed decimal numeral with its newline gives that number back |
| Text.ParseIntNeedsDigit | netbyte/testserver.py:109 | `int()` succeeds only on input holding a decimal digit |
| Text.ParseIntRejectsLetter | netbyte/testserver.py:108-112 | `int()` raises `ValueError` on input whose first byte is not blank, a sign or a digit, such as a letter of either case |
| Framing.ScanHandsOnLines | netbyte/testserver.py:74-85 | every line the inner loop hands to the handler is newline-terminated, holds no other newline and is not an end line |
| Framing.ScanSpellsBuffer | netbyte/testserver.py:74-85 | the handled lines, in order, are the consecutive slices of the joined buffer from `start_i` on |
| Framing.ScanExhausts | netbyte/testserver.py:74-85 | when no end line is met, the handled lines reach the final `start_i`, and no newline follows it |
| Framing.ScanEndsAtEndLine | netbyte/testserver.py:77-84 | when an end line is met, it follows the handled lines directly, nothing after it is handled, and the final `start_i` is just past it |
| Framing.ScanYieldsLines | netbyte/testserver.py:74-85 | the four facts above together |
| Framing.FirstEndIsFirst | netbyte/testserver.py:77-80 | the index of the first end line in a list of lines: none before it is an end line, and the line at it is one |
| Framing.ScanFollowsFramer | netbyte/testserver.py:74-85 | for a buffer made of whole lines followed by bytes without a newline, the inner loop agrees with an independent framer: it handles exactly the lines before the first end line and stops after that line, or else handles all lines and stops at the tail |
| Framing.PendingStaysLineFree | netbyte/testserver.py:67-93 | while a sub-test goes on, no pending chunk holds a newline (invariant of the outer loop) |
| Framing.PendingKeepsPartialLine | netbyte/testserver.py:67-93 | when a pass does not end the sub-test, a chunk without a newline is appended to the pending buffer and nothing is handled; otherwise no newline follows the final `start_i`, and the pending buffer joins to the bytes from there when line 87 keeps them, and to nothing otherwise |
| Framing.HandledAreBufferLines | netbyte/testserver.py:74-85 | after a chunk is added, the handled lines are whole non-end lines that spell the joined buffer from its start |
| Framing.RemainderFollowsEndLine | netbyte/testserver.py:77-93 | when a sub-test ends, the end line directly follows the handled lines, and the handed-on message is either empty or exactly the bytes after the end line, never one byte |
| Framing.CarriesTrailingBytes | netbyte/testserver.py:87-89 | `end\nmore` in one read ends the sub-test and hands on `more` |
| Framing.CarriesPartialLine | netbyte/testserver.py:87-91 | after `hi\nab`, `hi\n` is handled and `ab` stays pending |
| Framing.FinishesPartialLine | netbyte/testserver.py:67-93 | with `ab` pending, the read `c\nend\n` handles the joined line `abc\n`, then ends the sub-test with nothing left over |
| Framing.DropsOneByteRemainder | netbyte/testserver.py:87-93 | after `hi\nx`, `hi\n` is handled and the pending buffer is emptied, so `x` is lost |
| Framing.DropsRemainderAfterBufferedChunk | netbyte/testserver.py:87-93 | after a buffered `ab` and then `c\nde`, `abc\n` is handled and `de` is lost |
| Framing.LineThenEndLine | netbyte/testserver.py:72-93 | `hi\nend\n` in one read handles `hi\n`, ends the sub-test and hands on nothing |
| Framing.EndLineFirst | netbyte/testserver.py:77-93 | a chunk starting with `end\n` on an empty buffer ends the sub-test at once with no line handled, handing on the rest of the chunk when that is at least two bytes long, and nothing otherwise |
| Net.Receive | netbyte/testserver.py:65 | `recv(4096)` returns at most 4096 bytes; the returned bytes followed by what is still unread are what was unread before; it returns nothing exactly when the peer has closed; otherwise the backlog shrinks |
| Net.Connection.Send | netbyte/testserver.py:37 | a send appends the data to what the peer has received and changes nothing else |
| Net.Connection.Recv | netbyte/testserver.py:65 | a read returns the next chunk and removes it from what the peer has still to deliver |
| Net.Connection.Close | netbyte/testserver.py:140 | closing leaves everything sent and unread as it was and marks the socket closed |
| Net.Noise | netbyte/testserver.py:115 | the `n` random bytes are the next `n` bytes of the random stream |
| Net.Entropy.Urandom | netbyte/testserver.py:115 | `os.urandom(n)` returns the next `n` bytes of the stream and advances it by `n` |
| Handlers.EchoReply | netbyte/testserver.py:97-102 | the Echo reply is the line itself |
| Handlers.EchoRepliesAreLines | netbyte/testserver.py:97-102 | over any list of lines, Echo sends back exactly those lines in order and draws no random bytes |
| Handlers.EchoHandler | netbyte/testserver.py:97-102 | `echo_handler` sends the line back and changes nothing else |
| Handlers.HexLength | netbyte/testserver.py:108-114 | the length Hex uses is always at least 1 |
| Handlers.HexReplyShape | netbyte/testserver.py:104-117 | an accepted request for `n` gets one message of exactly `n` bytes; a refused one gets the warning and then 10 bytes; the bytes are the random payload followed by a newline |
| Handlers.HexHonoursRequest | netbyte/testserver.py:108-117 | a client typing the numeral of `n > 0` gets exactly `n` bytes ending in a newline and no warning |
| Handlers.HexRefusal | netbyte/testserver.py:110-115 | a refused request gets the warning, then nine random bytes and a newline |
| Handlers.HexRefusesZeroAndText | netbyte/testserver.py:108-114 | `0` and `abc` are both refused |
| Handlers.HexHandler | netbyte/testserver.py:104-117 | `hex_handler` sends the Hex reply for the line, built from the next random bytes, and draws exactly `n - 1` of them |
| Handlers.ByteCountReports | netbyte/testserver.py:119-126 | Byte Count sends one message: `Received `, the decimal length of the line, then ` bytes.` and a newline |
| Handlers.ByteCountCountsNewline | netbyte/testserver.py:123-126 | `test\n` is reported as `Received 5 bytes.` |
| Handlers.ByteCountOneReportPerLine | netbyte/testserver.py:119-126 | over any list of lines, Byte Count sends one report per line, the i-th for the i-th line, and draws no random bytes |
| Handlers.ByteCountHandler | netbyte/testserver.py:119-126 | `byte_count_handler` sends the count report and changes nothing else |
| Handlers.DataHandler | netbyte/testserver.py:82 | `data_handler(line)` sends the active handler's reply and draws what that handler draws |
| Runner.HandledAreLines | netbyte/testserver.py:74-85 | over a whole sub-test, every line any handler receives is a whole line and not an end line |
| Runner.EchoLoopSendsHandled | netbyte/testserver.py:97-102 | in the Echo sub-test (no prompt), the loop sends exactly the lines it handled and draws nothing |
| Runner.DisconnectBeforeHandling | netbyte/testserver.py:65-70 | when the peer has closed and nothing is handed on, the sub-test fails with a disconnect after the prompt, with no handler call and no random draw |
| Runner.InitialComesFirst | netbyte/testserver.py:61-65 | a handed-on message is processed first and only once, before anything is read; when it ends the sub-test, the peer is not read at all |
| Runner.HandsOnTail | netbyte/testserver.py:87-95 | a sub-test that ends hands on nothing or at least two bytes |
| Runner.HandleLine | netbyte/testserver.py:78-82 | an end line sets `done` and sends nothing; any other line is handed to the handler, whose replies are appended |
| Runner.HandleLines | netbyte/testserver.py:74-85 | the inner loop stops where the line scan stops, sets `done` exactly when the scan met an end line, and sends the handler's replies to the scanned lines |
| Runner.Consume | netbyte/testserver.py:67-93 | buffering a non-empty chunk, handling its lines and the carry-over check produce the new pending buffer, `done` and the handed-on message of `Absorb`, with the replies to the handled lines |
| Runner.RunTest | netbyte/testserver.py:39-95 | `run_test` sends, reads, draws and returns exactly what `TestRun` gives: the header, then each pass's prompt and replies, ending with the handed-on message or a disconnect |
| Session.HandleConnection | netbyte/testserver.py:33-140 | `handle_connection` sends, reads and draws exactly what `Converse` gives, and the socket is closed exactly when the session completes |
| Session.BannerFirst | netbyte/testserver.py:37 | whatever the client does, the banner is sent first and the Echo header second |
| Session.TestsInOrder | netbyte/testserver.py:128-137 | in a completed session, all three sub-tests end; Hex starts from what Echo handed on and Byte Count from what Hex handed on; the leftover is what Byte Count handed on; the Hex header directly follows everything Echo sent, and the Byte Count header directly follows everything Hex sent; exactly one message beyond the banner, the sub-tests and the closing message is sent when bytes are left over, and none otherwise |
| Session.ClosingLast | netbyte/testserver.py:134-140 | a completed session ends with the closing message, directly preceded by the notice of unexpected data, without a newline, when bytes were left over |
| Session.DropStopsSession | netbyte/testserver.py:128-140 | when a sub-test meets a closed peer, the session sends the banner and what the sub-tests up to that one sent, and nothing more: no later sub-test, no notice, no closing message, and nothing left over |
| Session.LeftoverNeverOneByte | netbyte/testserver.py:87-89 | bytes left over after the last sub-test are never a single byte |
| Session.EndsOnFirstChunk | netbyte/testserver.py:61-89 | a sub-test whose first chunk starts with `end\n` sends only its prompt, handles nothing, reads nothing more, and hands on the rest of that chunk when it is at least two bytes long |
| Session.EchoEndsFirst | netbyte/testserver.py:128 | one write `end\nend\nend\n` ends the Echo test on its first line and hands on `end\nend\n` |
| Session.HexEndsSecond | netbyte/testserver.py:129-130 | the Hex test handed `end\nend\n` sends its header and prompt, ends without reading and hands on `end\n` |
| Session.CountEndsThird | netbyte/testserver.py:131-132 | the Byte Count test handed `end\n` sends its header and prompt and ends with nothing left over |
| Session.EchoesThenEnds | netbyte/testserver.py:97-102 | an Echo test whose client writes `hi\nend\n` sends its header, echoes `hi\n` and ends with nothing handed on |
| Session.EchoesAcrossReads | netbyte/testserver.py:57-102 | an Echo test whose client writes `hi\nab` and then `c\nend\n` echoes `hi\n`, then the line `abc\n` completed across the two reads, and ends with nothing handed on |
| Session.OneWriteEndsEverything | netbyte/testserver.py:128-140 | a client writing `end\nend\nend\n` at once receives exactly the banner, the three headers, the two prompts and the closing message, and the session completes |

## Definitions

These functions and constants model the cited lines directly. The contracts in the table
above state what they compute.

- `Termination.IsEndLine` (netbyte/testserver.py:30, used at line 79): `end_pattern.match(line)`. It is built from `Termination.EndFrom`, the match from a position (skip whitespace, then look for the keyword), and `Termination.KeywordAt`, the keyword `end` in any case. `Termination.EndAt` is the regular expression's own reading: the `\s*` takes exactly `k` bytes.
- `Text.ParseInt` (netbyte/testserver.py:109): `int(line)`, as `None` for a `ValueError`. It is built from `Text.StripLeading` and `Text.StripTrailing`, `int()`'s whitespace handling over `Text.IsSpace`, and from `Text.DigitsValue`, the value of a digit string.
- `Text.Concat` (netbyte/testserver.py:75): `''.join(messages)`. `Text.Find` (netbyte/testserver.py:76, 85) is listed in the table.
- `Net.RecvSize` (netbyte/testserver.py:65): the 4096 passed to `recv`.
- `Framing.ScanLines` and `Framing.ScanFrom` (netbyte/testserver.py:74-85): the inner loop from `start_i`, giving the lines handled, whether an end line was met, and the final `start_i`.
- `Framing.Absorb` (netbyte/testserver.py:67-93): one pass of the outer loop once a chunk is in: append it, scan the joined buffer when the chunk holds a newline, then apply the line-87 check.
- `Handlers.HexAccepted` (netbyte/testserver.py:109-111): `int(line)` succeeded and gave a number above 0. `Handlers.HexLength` (netbyte/testserver.py:109-114) gives that number or `Handlers.HexDefault`, the 10 of line 114.
- `Handlers.HexReply`, `Handlers.ByteCountReply` and `Handlers.Replies` (netbyte/testserver.py:104-126): what Hex and Byte Count send for one line, and what a handler sends for a list of lines, in order.
- `Handlers.Reply` and `Handlers.Draws` (netbyte/testserver.py:82): `data_handler(line)` for whichever handler the sub-test uses, as what it sends and how many random bytes it draws.
- Protocol strings:
  - `Handlers.HexWarning` (netbyte/testserver.py:113), the Hex warning;
  - `Session.HexPrompt` (netbyte/testserver.py:129) and `Session.CountPrompt` (netbyte/testserver.py:131), the prompts;
  - `Session.UnexpectedNotice` (netbyte/testserver.py:135), the notice, sent followed by the leftover bytes;
  - `Session.Closing` (netbyte/testserver.py:139), the closing message.
- `Runner.Header` (netbyte/testserver.py:52): the header string. `Runner.Asked` (netbyte/testserver.py:58-59): the prompt send, if any. `Runner.Next` (netbyte/testserver.py:61-65): the handed-on message or a `recv(4096)`.
- `Runner.Iterations`, `Runner.AfterChunk` and `Runner.TestRun` (netbyte/testserver.py:39-95): a whole `run_test`, as a function.
- `Session.Banner` (netbyte/testserver.py:37) and `Session.Converse` (netbyte/testserver.py:128-140): the banner, and a whole `handle_connection`, as a function.

## Left out

- `launch_testserver` (netbyte/testserver.py:144-188) is not part of this model: the listening socket, the accept loop, its `DisconnectedError` and `socket.error` handlers, and the interrupt handling.
- After a disconnect, closing the socket is left to that accept loop. `Session.HandleConnection` returns `Dropped` and leaves the connection open.
- Logging (`out.print_flat`, `out.print_info`) is not modelled, because it sends nothing to the client.
- Partial sends: `Net.Connection.Send` assumes `send` transmits every byte.
- TCP segmentation: `Net.Receive` takes the peer's writes as given and splits a write longer than 4096 bytes. It never merges two writes, although a real `recv` may.
- The model makes no claim that the lines handled are the same however the input is split into reads, because the code's line-87 check makes that false (see above).
- Randomness: `os.urandom` is an arbitrary stream passed in as a parameter, so nothing is claimed about its distribution.
- Handlers.HexHandler: ignores the size limit of `os.urandom` and the crash on an oversized request. The model honours every `n > 0`, however large. In the source, a huge typed number makes `os.urandom(hex_length - 1)` at line 115 raise `OverflowError` or `MemoryError`. Neither lines 108-114 nor the accept loop catch these, so the server process stops. `Handlers.HexLength` and `Handlers.HexHonoursRequest` share this limit.
- A peer that neither writes nor closes cannot be expressed. The script of writes is finite, so every sub-test in the model ends. The source blocks in `recv` at line 65 for as long as the peer stays silent, with no timeout.
- A `send` to a peer that has gone away always succeeds in the model. The real `send` can raise `socket.error` (for example `EPIPE`). That error leaves `handle_connection` and is caught by the accept loop, which is not part of this model.
- `VERSION` is a parameter of `Session.HandleConnection`.
- `Text.ParseInt` models `int()` only for surrounding whitespace, an optional sign and decimal digits. Any other form Python 2's `int()` may accept is refused by the model, so Hex falls back to the warning and 10.
- Python 2 byte strings are modelled as strings of `char`, one per byte.

=== FILE: framing.dfy ===
/** Line framing inside `run_test`: the inner loop that cuts the joined
    pending buffer into `\n`-terminated lines and stops at the first end line
    (netbyte/testserver.py:72-85), and the buffer update that follows it,
    including the carry-over check of line 87 exactly as written. */
module Framing {
  import opened Text
  import opened Termination

  predicate AllLines(lines: seq<string>) {
    forall i :: 0 <= i < |lines| ==> IsLine(lines[i])
  }

  predicate NoneEnds(lines: seq<string>) {
    forall i :: 0 <= i < |lines| ==> !IsEndLine(lines[i])
  }

  /** No pending chunk holds a newline. */
  predicate LineFree(messages: seq<string>) {
    forall i :: 0 <= i < |messages| ==> NoNewline(messages[i])
  }

  /** Where the inner loop stops: the lines it handed to the handler, whether
      it met an end line (`done`), and the final `start_i`. */
  datatype Scan = Scan(handled: seq<string>, done: bool, next: nat)

  /** The inner loop from `start_i == start`: look for the next newline with
      `find`, then go on from what it found. */
  function ScanLines(full: string, start: nat): (r: Scan)
    requires start <= |full|
    ensures start <= r.next <= |full|
    decreases |full| - start, 1
  {
    ScanFrom(full, start, Find(full, '\n', start))
  }

  /** One pass of the inner loop once `find` has returned `e`: no newline ends
      the loop, an end line stops it, any other line goes to the handler. */
  function ScanFrom(full: string, start: nat, e: int): (r: Scan)
    requires start <= |full| && e == Find(full, '\n', start)
    ensures start <= r.next <= |full|
    decreases |full| - start, 0
  {
    if e == -1 then Scan([], false, start)
    else
      var line := full[start..e + 1];
      if IsEndLine(line) then Scan([], true, e + 1)
      else
        var rest := ScanLines(full, e + 1);
        Scan([line] + rest.handled, rest.done, rest.next)
  }

  /** One pass of the inner loop, spelled out. */
  lemma ScanStep(full: string, start: nat)
    requires start <= |full|
    ensures var e := Find(full, '\n', start);
      ScanLines(full, start) ==
        if e == -1 then Scan([], false, start)
        else if IsEndLine(full[start..e + 1]) then Scan([], true, e + 1)
        else Scan([full[start..e + 1]] + ScanLines(full, e + 1).handled, ScanLines(full, e + 1).done, ScanLines(full, e + 1).next)
  {
    assert ScanLines(full, start) == ScanFrom(full, start, Find(full, '\n', start));
  }

  /** Every line handed to the handler is a whole line and not an end line. */
  lemma {:induction false} ScanHandsOnLines(full: string, start: nat)
    requires start <= |full|
    ensures var r := ScanLines(full, start); AllLines(r.handled) && NoneEnds(r.handled)
    decreases |full| - start
  {
    var e := Find(full, '\n', start);
    if e != -1 && !IsEndLine(full[start..e + 1]) {
      var line := full[start..e + 1];
      var rest := ScanLines(full, e + 1);
      ScanHandsOnLines(full, e + 1);
      var hs := [line] + rest.handled;
      forall i | 0 <= i < |hs| ensures IsLine(hs[i]) && !IsEndLine(hs[i]) {
        if i > 0 { assert hs[i] == rest.handled[i - 1]; }
      }
    }
  }

  /** The lines handled by scan `r` from `start` spell the buffer from there. */
  predicate Spells(full: string, start: nat, r: Scan) {
    var c := |Concat(r.handled)|;
    start + c <= r.next <= |full| && full[start..start + c] == Concat(r.handled)
  }

  /** The handled lines spell the buffer from `start` in order. */
  lemma {:induction false} ScanSpellsBuffer(full: string, start: nat)
    requires start <= |full|
    ensures Spells(full, start, ScanLines(full, start))
    decreases |full| - start
  {
    ScanStep(full, start);
    var r := ScanLines(full, start);
    var e := Find(full, '\n', start);
    if e != -1 && !IsEndLine(full[start..e + 1]) {
      var line := full[start..e + 1];
      var rest := ScanLines(full, e + 1);
      ScanSpellsBuffer(full, e + 1);
      assert r == Scan([line] + rest.handled, rest.done, rest.next);
      SpellsStep(full, start, e, rest);
    } else {
      assert r.handled == [];
    }
  }

  /** A line handed on in front of lines that spell the buffer after it
      spells the buffer from the line's start. */
  lemma SpellsStep(full: string, start: nat, e: nat, rest: Scan)
    requires start <= e < |full| && Spells(full, e + 1, rest)
    ensures Spells(full, start, Scan([full[start..e + 1]] + rest.handled, rest.done, rest.next))
  {
    var c' := |Concat(rest.handled)|;
    ConcatCons(full[start..e + 1], rest.handled);
    SliceJoin(full, start, e + 1, e + 1 + c');
  }

  /** When no end line is met, the handled lines reach the final `start_i`
      and what follows holds no newline. */
  lemma {:induction false} ScanExhausts(full: string, start: nat)
    requires start <= |full|
    ensures var r := ScanLines(full, start);
      !r.done ==> start + |Concat(r.handled)| == r.next && forall i :: r.next <= i < |full| ==> full[i] != '\n'
    decreases |full| - start
  {
    var e := Find(full, '\n', start);
    if e != -1 && !IsEndLine(full[start..e + 1]) {
      var line := full[start..e + 1];
      var rest := ScanLines(full, e + 1);
      ScanExhausts(full, e + 1);
      ConcatCons(line, rest.handled);
    }
  }

  /** When scan `r` from `start` meets an end line, that line directly follows
      the handled lines and ends where the scan stops. */
  predicate EndsRight(full: string, start: nat, r: Scan) {
    var c := |Concat(r.handled)|;
    r.done ==> start + c < r.next <= |full| && IsLine(full[start + c..r.next]) && IsEndLine(full[start + c..r.next])
  }

  /** When an end line is met, it directly follows the handled lines and ends
      at the final `start_i`. */
  lemma {:induction false} ScanEndsAtEndLine(full: string, start: nat)
    requires start <= |full|
    ensures EndsRight(full, start, ScanLines(full, start))
    decreases |full| - start
  {
    ScanStep(full, start);
    var r := ScanLines(full, start);
    var e := Find(full, '\n', start);
    if e != -1 {
      var line := full[start..e + 1];
      if IsEndLine(line) {
        assert r == Scan([], true, e + 1);
        assert full[start + |Concat(r.handled)|..r.next] == line;
      } else {
        var rest := ScanLines(full, e + 1);
        ScanEndsAtEndLine(full, e + 1);
        assert r == Scan([line] + rest.handled, rest.done, rest.next);
        EndsStep(full, start, e, rest);
      }
    }
  }

  /** A line handed on in front keeps the end line right after the handled lines. */
  lemma EndsStep(full: string, start: nat, e: nat, rest: Scan)
    requires start <= e < |full| && EndsRight(full, e + 1, rest)
    ensures EndsRight(full, start, Scan([full[start..e + 1]] + rest.handled, rest.done, rest.next))
  {
    ConcatCons(full[start..e + 1], rest.handled);
  }

  /** Both halves of what the inner loop guarantees. */
  lemma ScanYieldsLines(full: string, start: nat)
    requires start <= |full|
    ensures var r := ScanLines(full, start); var c := |Concat(r.handled)|;
      && start + c <= r.next <= |full|
      && AllLines(r.handled) && NoneEnds(r.handled)
      && full[start..start + c] == Concat(r.handled)
      && (!r.done ==> start + c == r.next && forall i :: r.next <= i < |full| ==> full[i] != '\n')
      && (r.done ==> IsLine(full[start + c..r.next]) && IsEndLine(full[start + c..r.next]))
  {
    ScanHandsOnLines(full, start);
    ScanSpellsBuffer(full, start);
    ScanExhausts(full, start);
    ScanEndsAtEndLine(full, start);
  }

  /** Index of the first end line in `lines`, or `|lines|` when there is none. */
  function FirstEnd(lines: seq<string>): (k: nat)
    ensures k <= |lines|
  {
    if lines == [] then 0
    else if IsEndLine(lines[0]) then 0
    else FirstEnd(lines[1..]) + 1
  }

  /** `FirstEnd` finds the first end line: none comes before it. */
  lemma {:induction false} FirstEndIsFirst(lines: seq<string>)
    ensures var k := FirstEnd(lines);
      NoneEnds(lines[..k]) && (k < |lines| ==> IsEndLine(lines[k]))
  {
    if lines != [] && !IsEndLine(lines[0]) {
      FirstEndIsFirst(lines[1..]);
      var k := FirstEnd(lines[1..]);
      assert lines[..k + 1] == [lines[0]] + lines[1..][..k];
    }
  }

  /** The inner loop agrees with an independent line framer: whenever the
      buffer from `start` reads as whole lines followed by a tail without
      newline, the handler gets exactly the lines before the first end line, in
      order, and `start_i` stops just after the end line, or after the last
      whole line when there is none. */
  lemma {:induction false} ScanFollowsFramer(full: string, start: nat, lines: seq<string>, tail: string)
    requires start <= |full|
    requires AllLines(lines) && NoNewline(tail)
    requires full[start..] == Concat(lines) + tail
    ensures Frames(ScanLines(full, start), lines, start)
    decreases |lines|
  {
    if lines == [] {
      if Find(full, '\n', start) != -1 {
        assert false;
      }
      assert ScanLines(full, start) == Scan([], false, start);
    } else {
      var l := lines[0];
      var more := lines[1..];
      var after := Concat(more) + tail;
      assert [l] + more == lines;
      ConcatCons(l, more);
      AppendAssoc(l, Concat(more), tail);
      FirstLineFound(full, start, l, after);
      ScanAtLine(full, start, l);
      assert lines[..1] == [l];
      ConcatCons(l, []);
      if IsEndLine(l) {
        assert FirstEnd(lines) == 0;
        assert ScanLines(full, start) == Scan([], true, start + |l|);
      } else {
        assert AllLines(more) by {
          forall i | 0 <= i < |more| ensures IsLine(more[i]) {
            assert more[i] == lines[i + 1];
          }
        }
        ScanFollowsFramer(full, start + |l|, more, tail);
        FramerStep(lines, ScanLines(full, start + |l|), start);
      }
    }
  }

  /** What a scan that frames `lines` from `start` looks like: the lines before
      the first end line, whether there is one, and where the scan stops. */
  predicate Frames(r: Scan, lines: seq<string>, start: nat) {
    var k := FirstEnd(lines);
    && r.handled == lines[..k]
    && r.done == (k < |lines|)
    && r.next == start + |Concat(lines[..if r.done then k + 1 else k])|
  }

  /** Putting a line that is not an end line in front keeps the framing. */
  lemma FramerStep(lines: seq<string>, rest: Scan, start: nat)
    requires |lines| > 0 && !IsEndLine(lines[0])
    requires Frames(rest, lines[1..], start + |lines[0]|)
    ensures Frames(Scan([lines[0]] + rest.handled, rest.done, rest.next), lines, start)
  {
    var l, more := lines[0], lines[1..];
    var k' := FirstEnd(more);
    var m := if rest.done then k' + 1 else k';
    assert FirstEnd(lines) == k' + 1;
    TakeCons(lines, k');
    TakeCons(lines, m);
    ConcatCons(l, more[..m]);
  }

  /** One step of the scan at a whole line `l` starting at `start`. */
  lemma ScanAtLine(full: string, start: nat, l: string)
    requires start <= |full| && IsLine(l)
    requires Find(full, '\n', start) == start + |l| - 1 && full[start..start + |l|] == l
    ensures start + |l| <= |full|
    ensures ScanLines(full, start) == if IsEndLine(l) then Scan([], true, start + |l|)
      else Scan([l] + ScanLines(full, start + |l|).handled, ScanLines(full, start + |l|).done, ScanLines(full, start + |l|).next)
  {
  }

  /** `find` from the start of a whole line stops at that line's newline. */
  lemma FirstLineFound(full: string, start: nat, l: string, after: string)
    requires start <= |full| && IsLine(l)
    requires full[start..] == (l + after)
    ensures Find(full, '\n', start) == start + |l| - 1
    ensures full[start..start + |l|] == l && full[start + |l|..] == after
  {
    assert full[start..start + |l|] == full[start..][..|l|];
    assert (l + after)[..|l|] == l;
    assert full[start + |l|..] == full[start..][|l|..];
    assert (l + after)[|l|..] == after;
    assert full[start + |l| - 1] == '\n';
    assert forall i :: start <= i < start + |l| - 1 ==> full[i] == l[i - start];
  }

  /** The outcome of one pass of `while not done` once a non-empty `message`
      has arrived: the lines handled, whether the sub-test ended, the new
      pending list `messages`, and `remaining_message`. */
  datatype Absorbed = Absorbed(handled: seq<string>, done: bool, messages: seq<string>, remaining: string)

  /** Lines 67-93: append the chunk; if it holds a newline, scan the joined
      buffer and then apply the carry-over check `start_i < len(message) - 1`,
      which compares an index into the joined buffer with the length of the
      latest chunk only. */
  function Absorb(messages: seq<string>, message: string): Absorbed
  {
    var buffered := messages + [message];
    if '\n' !in message then Absorbed([], false, buffered, "")
    else
      var full := Concat(buffered);
      var r := ScanLines(full, 0);
      if r.next < |message| - 1 then
        if r.done then Absorbed(r.handled, true, buffered, full[r.next..])
        else Absorbed(r.handled, false, [full[r.next..]], "")
      else Absorbed(r.handled, r.done, [], "")
  }

  /** The invariant of `while not done`: as long as the sub-test goes on, no
      pending chunk contains a newline. */
  lemma PendingStaysLineFree(messages: seq<string>, message: string)
    requires LineFree(messages)
    ensures var a := Absorb(messages, message); !a.done ==> LineFree(a.messages)
  {
    var buffered := messages + [message];
    if '\n' in message {
      ScanYieldsLines(Concat(buffered), 0);
    } else {
      assert NoNewline(message);
      assert forall i :: 0 <= i < |messages| ==> buffered[i] == messages[i];
    }
  }

  /** What stays pending when the sub-test goes on: a chunk without a newline
      is appended to the buffer and nothing is handled; otherwise no newline
      is left after the final `start_i`, and the buffer becomes the bytes from
      there when line 87 keeps them, or nothing. */
  lemma PendingKeepsPartialLine(messages: seq<string>, message: string)
    ensures var a := Absorb(messages, message); var full := Concat(messages + [message]);
      var r := ScanLines(full, 0);
      !a.done ==>
        && ('\n' !in message ==> a.handled == [] && a.messages == messages + [message])
        && ('\n' in message ==>
              && (forall i :: r.next <= i < |full| ==> full[i] != '\n')
              && Concat(a.messages) == (if r.next < |message| - 1 then full[r.next..] else ""))
  {
    var full := Concat(messages + [message]);
    var r := ScanLines(full, 0);
    ScanYieldsLines(full, 0);
    ConcatCons(full[r.next..], []);
  }

  /** The handler sees whole lines, none of them an end line, which together
      spell the front of the joined buffer in order. */
  lemma HandledAreBufferLines(messages: seq<string>, message: string)
    ensures var a := Absorb(messages, message); var full := Concat(messages + [message]);
      && AllLines(a.handled) && NoneEnds(a.handled)
      && |Concat(a.handled)| <= |full| && full[..|Concat(a.handled)|] == Concat(a.handled)
  {
    ScanYieldsLines(Concat(messages + [message]), 0);
  }

  /** When the sub-test ends, the end line directly follows the handled lines
      at `start_i`, and the returned remainder is either empty or exactly the
      bytes after the end line. It is kept only when `start_i < len(message) - 1`,
      so a kept remainder is at least two bytes long. */
  lemma RemainderFollowsEndLine(messages: seq<string>, message: string)
    ensures var a := Absorb(messages, message); var full := Concat(messages + [message]);
      var r := ScanLines(full, 0); var c := |Concat(a.handled)|;
      a.done ==>
        && c < r.next <= |full|
        && full[..c] == Concat(a.handled)
        && IsLine(full[c..r.next]) && IsEndLine(full[c..r.next])
        && (a.remaining == "" || a.remaining == full[r.next..])
        && (a.remaining != "" <==> r.next < |message| - 1)
        && (a.remaining != "" ==> |a.remaining| >= 2)
  {
    var full := Concat(messages + [message]);
    ScanYieldsLines(full, 0);
    ConcatSnoc(messages, message);
  }

  /** `end\nmore` in one read: the sub-test ends and `more` is handed on. */
  lemma CarriesTrailingBytes()
    ensures Absorb([], "end\nmore") == Absorbed([], true, ["end\nmore"], "more")
  {
    var full := "end\nmore";
    assert [] + [full] == [full];
    assert Concat([full]) == full by { ConcatCons(full, []); }
    assert Find(full, '\n', 0) == 3;
    assert full[0..4] == "end\n";
    CaseAndBlanks();
    assert ScanLines(full, 0) == Scan([], true, 4);
    assert full[4..] == "more";
  }

  /** A partial line stays pending: after `hi\nab` the handler has seen
      `hi\n` and `ab` waits for the rest of its line. */
  lemma CarriesPartialLine()
    ensures Absorb([], "hi\nab") == Absorbed(["hi\n"], false, ["ab"], "")
  {
    var full := "hi\nab";
    assert [] + [full] == [full];
    assert Concat([full]) == full by { ConcatCons(full, []); }
    assert Find(full, '\n', 0) == 2;
    assert full[0..3] == "hi\n";
    assert !IsEndLine("hi\n");
    assert Find(full, '\n', 3) == -1;
    assert ScanLines(full, 3) == Scan([], false, 3);
    assert ScanLines(full, 0) == Scan(["hi\n"], false, 3);
    assert full[3..] == "ab";
  }

  /** The pending `ab` and the next read `c\nend\n` join into the line
      `abc\n`, which is handled, and the end line after it ends the sub-test
      with nothing left over. */
  lemma FinishesPartialLine()
    ensures Absorb(["ab"], "c\nend\n") == Absorbed(["abc\n"], true, [], "")
  {
    var full := "abc\nend\n";
    assert Concat(["ab", "c\nend\n"]) == full by {
      ConcatCons("c\nend\n", []);
      assert ["ab", "c\nend\n"] == ["ab"] + ["c\nend\n"];
      ConcatCons("ab", ["c\nend\n"]);
    }
    assert ["ab"] + ["c\nend\n"] == ["ab", "c\nend\n"];
    assert Find(full, '\n', 0) == 3;
    assert full[0..4] == "abc\n";
    assert !IsEndLine("abc\n");
    ScanStep(full, 0);
    assert Find(full, '\n', 4) == 7;
    assert full[4..8] == "end\n";
    CaseAndBlanks();
    ScanStep(full, 4);
    assert ScanLines(full, 4) == Scan([], true, 8);
    assert ScanLines(full, 0) == Scan(["abc\n"], true, 8);
  }

  /** The check at line 87 loses a one-byte remainder: after `hi\nx` the
      handler has seen `hi\n` and the `x` is no longer pending. */
  lemma DropsOneByteRemainder()
    ensures Absorb([], "hi\nx") == Absorbed(["hi\n"], false, [], "")
  {
    var full := "hi\nx";
    assert [] + [full] == [full];
    assert Concat([full]) == full by { ConcatCons(full, []); }
    assert Find(full, '\n', 0) == 2;
    assert full[0..3] == "hi\n";
    assert !IsEndLine("hi\n");
    assert Find(full, '\n', 3) == -1;
    assert ScanLines(full, 3) == Scan([], false, 3);
    assert ScanLines(full, 0) == Scan(["hi\n"], false, 3);
  }

  /** The check at line 87 also loses a longer remainder when earlier chunks
      were still buffered: `ab` then `c\nde` handles `abc\n` and drops `de`. */
  lemma DropsRemainderAfterBufferedChunk()
    ensures Absorb(["ab"], "c\nde") == Absorbed(["abc\n"], false, [], "")
  {
    var full := "abc\nde";
    assert Concat(["ab", "c\nde"]) == full by {
      ConcatCons("c\nde", []);
      assert ["ab", "c\nde"] == ["ab"] + ["c\nde"];
      ConcatCons("ab", ["c\nde"]);
    }
    assert ["ab"] + ["c\nde"] == ["ab", "c\nde"];
    assert Find(full, '\n', 0) == 3;
    assert full[0..4] == "abc\n";
    assert !IsEndLine("abc\n");
    assert Find(full, '\n', 4) == -1;
    assert ScanLines(full, 4) == Scan([], false, 4);
    assert ScanLines(full, 0) == Scan(["abc\n"], false, 4);
  }

  /** A line and an end line in one read: the line is handled, the sub-test
      ends, and nothing is left over. */
  lemma LineThenEndLine()
    ensures Absorb([], "hi\nend\n") == Absorbed(["hi\n"], true, [], "")
  {
    var full := "hi\nend\n";
    assert [] + [full] == [full];
    assert Concat([full]) == full by { ConcatCons(full, []); }
    assert Find(full, '\n', 0) == 2;
    assert full[0..3] == "hi\n";
    assert !IsEndLine("hi\n");
    ScanStep(full, 0);
    assert Find(full, '\n', 3) == 6;
    assert full[3..7] == "end\n";
    CaseAndBlanks();
    ScanStep(full, 3);
    assert ScanLines(full, 3) == Scan([], true, 7);
    assert ScanLines(full, 0) == Scan(["hi\n"], true, 7);
  }

  /** A chunk that starts with `end` and a newline ends the sub-test at once,
      with nothing handled; what follows is handed on when line 87 keeps it. */
  lemma EndLineFirst(message: string)
    requires |message| >= 4 && message[..4] == "end\n"
    ensures Absorb([], message) == Absorbed([], true, if 4 < |message| - 1 then [message] else [],
                                            if 4 < |message| - 1 then message[4..] else "")
  {
    assert [] + [message] == [message];
    assert Concat([message]) == message by { ConcatCons(message, []); }
    assert message[0] == 'e' && message[1] == 'n' && message[2] == 'd' && message[3] == '\n';
    assert Find(message, '\n', 0) == 3;
    assert message[0..4] == "end\n";
    CaseAndBlanks();
    assert ScanLines(message, 0) == Scan([], true, 4);
  }
}

=== FILE: handlers.dfy ===
/** The three sub-test handlers of `handle_connection`
    (netbyte/testserver.py:97-126): what each sends back for one line, as pure
    functions, and the handlers themselves as methods that send it. */
module Handlers {
  import opened Text
  import opened Net

  datatype Handler = Echo | Hex | ByteCount

  const HexWarning: string := "You must enter a number larger than 0. Defaulting to 10.\n"
  const HexDefault: nat := 10

  /** `int(line)` gave a number larger than 0. */
  predicate HexAccepted(line: string) {
    ParseInt(line).Some? && ParseInt(line).value > 0
  }

  /** `hex_length` after the `try`: the requested count, or 10. */
  function HexLength(line: string): (n: nat)
    ensures n > 0
  {
    if HexAccepted(line) then ParseInt(line).value else HexDefault
  }

  /** Echo sends the line back untouched. */
  function EchoReply(line: string): (r: seq<string>)
    ensures Concat(r) == line
  {
    ConcatCons(line, []);
    [line]
  }

  /** Hex: the warning when the request is refused, then `payload` (the
      random bytes) followed by one newline. */
  function HexReply(line: string, payload: string): seq<string>
    requires |payload| == HexLength(line) - 1
  {
    var bytes := payload + "\n";
    if HexAccepted(line) then [bytes] else [HexWarning, bytes]
  }

  /** An accepted request for `n` bytes gets exactly `n` bytes; a refused one
      gets the warning and then ten bytes. Either way the bytes are the random
      payload followed by a newline. */
  lemma HexReplyShape(line: string, payload: string)
    requires |payload| == HexLength(line) - 1
    ensures var r := HexReply(line, payload);
      && |r| == (if HexAccepted(line) then 1 else 2)
      && (!HexAccepted(line) ==> r[0] == HexWarning && |r[1]| == 10)
      && (HexAccepted(line) ==> |r[0]| == ParseInt(line).value)
      && var last := r[|r| - 1]; last[..|last| - 1] == payload && last[|last| - 1] == '\n'
  {
    var bytes := payload + "\n";
    assert bytes[..|bytes| - 1] == payload;
  }

  /** `m` is the Byte Count report for `n` bytes: `Received `, the decimal
      digits of `n`, then ` bytes.` and a newline. */
  predicate ReportsCount(m: string, n: nat) {
    |m| > 17 && m[..9] == "Received " && m[|m| - 8..] == " bytes.\n"
    && AllDigits(m[9..|m| - 8]) && DigitsValue(m[9..|m| - 8]) == n
  }

  /** Byte Count: `Received <n> bytes.` and a newline. */
  function ByteCountReply(line: string): seq<string>
  {
    ["Received " + NatToString(|line|) + " bytes.\n"]
  }

  /** Byte Count sends one report, and it reports the line's length, its
      newline included, in decimal. */
  lemma ByteCountReports(line: string)
    ensures |ByteCountReply(line)| == 1 && ReportsCount(ByteCountReply(line)[0], |line|)
  {
    var d := NatToString(|line|);
    var m := "Received " + d + " bytes.\n";
    assert m[9..|m| - 8] == d;
  }

  /** How many random bytes a handler draws for one line. */
  function Draws(h: Handler, line: string): nat {
    if h == Hex then HexLength(line) - 1 else 0
  }

  /** What handler `h` sends for `line` when `payload` is what it drew. */
  function Reply(h: Handler, line: string, payload: string): seq<string>
    requires |payload| == Draws(h, line)
  {
    match h
    case Echo => EchoReply(line)
    case Hex => HexReply(line, payload)
    case ByteCount => ByteCountReply(line)
  }

  datatype Replied = Replied(sent: seq<string>, drawn: nat)

  /** Everything handler `h` sends for `lines`, in order, drawing its random
      bytes from `noise` after `drawn` bytes were used: the replies to all but
      the last line, then the reply to the last one. */
  function Replies(h: Handler, lines: seq<string>, noise: nat -> char, drawn: nat): Replied
    decreases |lines|
  {
    if lines == [] then Replied([], drawn)
    else
      var last := lines[|lines| - 1];
      var before := Replies(h, lines[..|lines| - 1], noise, drawn);
      var n := Draws(h, last);
      Replied(before.sent + Reply(h, last, Noise(noise, before.drawn, n)), before.drawn + n)
  }

  /** Handling one more line adds its reply after the earlier ones. */
  lemma RepliesSnoc(h: Handler, lines: seq<string>, line: string, noise: nat -> char, drawn: nat)
    ensures var before := Replies(h, lines, noise, drawn); var n := Draws(h, line);
      Replies(h, lines + [line], noise, drawn) ==
        Replied(before.sent + Reply(h, line, Noise(noise, before.drawn, n)), before.drawn + n)
  {
    assert (lines + [line])[..|lines|] == lines;
  }

  /** The Echo test sends back exactly the lines it received, in order. */
  lemma {:induction false} EchoRepliesAreLines(lines: seq<string>, noise: nat -> char, drawn: nat)
    ensures Replies(Echo, lines, noise, drawn) == Replied(lines, drawn)
    decreases |lines|
  {
    if lines != [] {
      var init := lines[..|lines| - 1];
      EchoRepliesAreLines(init, noise, drawn);
      assert init + [lines[|lines| - 1]] == lines;
    }
  }

  /** The Byte Count test sends one report per line, and only it never draws
      random bytes. */
  lemma {:induction false} ByteCountOneReportPerLine(lines: seq<string>, noise: nat -> char, drawn: nat)
    ensures var r := Replies(ByteCount, lines, noise, drawn);
      |r.sent| == |lines| && r.drawn == drawn
      && forall i :: 0 <= i < |lines| ==> r.sent[i] == ByteCountReply(lines[i])[0]
    decreases |lines|
  {
    if lines != [] {
      var init := lines[..|lines| - 1];
      ByteCountOneReportPerLine(init, noise, drawn);
      var r := Replies(ByteCount, lines, noise, drawn);
      var before := Replies(ByteCount, init, noise, drawn);
      assert r.sent == before.sent + ByteCountReply(lines[|lines| - 1]);
      forall i | 0 <= i < |lines| ensures r.sent[i] == ByteCountReply(lines[i])[0] {
        if i < |init| {
          assert lines[i] == init[i];
        }
      }
    }
  }

  /** A client that asks for `n > 0` bytes by typing the numeral gets exactly
      `n` bytes, the last one a newline, and no warning. */
  lemma HexHonoursRequest(n: nat, payload: string)
    requires n > 0 && |payload| == n - 1
    ensures HexLength(NatToString(n) + "\n") == n
    ensures HexReply(NatToString(n) + "\n", payload) == [payload + "\n"]
  {
    ParseIntOfNumeral(n);
  }

  /** A refused request gets the warning, then ten bytes ending in a newline. */
  lemma HexRefusal(line: string, payload: string)
    requires !HexAccepted(line) && |payload| == 9
    ensures HexLength(line) == 10 && HexReply(line, payload) == [HexWarning, payload + "\n"]
  {
  }

  /** `0` and text that is not a number are both refused. */
  lemma HexRefusesZeroAndText()
    ensures !HexAccepted("0\n") && !HexAccepted("abc\n")
  {
    ParseIntOfDigitLine("0");
    assert "0" + "\n" == "0\n";
    ParseIntRejectsLetter("abc\n");
  }

  /** Byte Count counts the newline: `test\n` is reported as 5 bytes. */
  lemma ByteCountCountsNewline()
    ensures ByteCountReply("test\n") == ["Received 5 bytes.\n"]
  {
    assert NatToString(5) == "5";
    assert "Received " + "5" + " bytes.\n" == "Received 5 bytes.\n";
  }

  // ---------------------------------------------------------------------------
  // The handlers as the server runs them, sending on the connection.

  /** `echo_handler` */
  method EchoHandler(conn: Connection, line: string)
    requires conn.open
    modifies conn
    ensures conn.sent == old(conn.sent) + EchoReply(line)
    ensures conn.incoming == old(conn.incoming) && conn.open
  {
    conn.Send(line);
  }

  /** `hex_handler` */
  method HexHandler(conn: Connection, rng: Entropy, line: string)
    requires conn.open
    modifies conn, rng
    ensures conn.sent == old(conn.sent) + HexReply(line, Noise(rng.noise, old(rng.drawn), HexLength(line) - 1))
    ensures rng.drawn == old(rng.drawn) + HexLength(line) - 1
    ensures conn.incoming == old(conn.incoming) && conn.open
  {
    var hexLength: int;
    var parsed := ParseInt(line);
    if parsed.Some? && parsed.value > 0 {
      hexLength := parsed.value;
    } else {
      conn.Send(HexWarning);
      hexLength := HexDefault;
    }
    var random := rng.Urandom(hexLength - 1);
    conn.Send(random + "\n");
  }

  /** `byte_count_handler` */
  method ByteCountHandler(conn: Connection, line: string)
    requires conn.open
    modifies conn
    ensures conn.sent == old(conn.sent) + ByteCountReply(line)
    ensures conn.incoming == old(conn.incoming) && conn.open
  {
    var size := |line|;
    var response := "Received " + NatToString(size) + " bytes.";
    assert response + "\n" == "Received " + NatToString(size) + " bytes.\n";
    conn.Send(response + "\n");
  }

  /** `data_handler(line)` inside `run_test`, for whichever handler the sub-test uses. */
  method DataHandler(conn: Connection, rng: Entropy, h: Handler, line: string)
    requires conn.open
    modifies conn, rng
    ensures var n := Draws(h, line);
      && conn.sent == old(conn.sent) + Reply(h, line, Noise(rng.noise, old(rng.drawn), n))
      && rng.drawn == old(rng.drawn) + n
    ensures conn.incoming == old(conn.incoming) && conn.open
  {
    match h
    case Echo => EchoHandler(conn, line);
    case Hex => HexHandler(conn, rng, line);
    case ByteCount => ByteCountHandler(conn, line);
  }
}

=== FILE: net.dfy ===
/** The outside world of one test-server connection: the accepted socket, seen
    as a scripted peer, and the operating system's random source behind
    `os.urandom`. */
module Net {
  import opened Text

  /** Buffer size of every `recv` call in `run_test`. */
  const RecvSize: nat := 4096

  /** Bytes the peer has written but the server has not read yet, counted so
      that every non-empty read makes it smaller. */
  function Backlog(incoming: seq<string>): nat {
    |incoming| + |Concat(incoming)|
  }

  datatype Received = Received(chunk: string, rest: seq<string>)

  /** One `recv(bufsize)` against a peer whose writes are `incoming`, in order:
      at most `bufsize` bytes of the next write, leaving the rest of it for the
      next call. An empty result means the peer has closed its side, which is
      what happens when its script is used up or when it holds an empty write. */
  function Receive(incoming: seq<string>, bufsize: nat): (r: Received)
    requires bufsize > 0
    ensures |r.chunk| <= bufsize
    ensures r.chunk + Concat(r.rest) == Concat(incoming)
    ensures r.chunk == "" <==> (incoming == [] || incoming[0] == "")
    ensures r.chunk != "" ==> Backlog(r.rest) < Backlog(incoming)
  {
    if incoming == [] then Received("", [])
    else if |incoming[0]| <= bufsize then
      assert incoming == [incoming[0]] + incoming[1..];
      ConcatCons(incoming[0], incoming[1..]);
      Received(incoming[0], incoming[1..])
    else
      var head := incoming[0];
      assert incoming == [head] + incoming[1..];
      ConcatCons(head, incoming[1..]);
      ConcatCons(head[bufsize..], incoming[1..]);
      assert head == head[..bufsize] + head[bufsize..];
      Received(head[..bufsize], [head[bufsize..]] + incoming[1..])
  }

  /** The accepted socket. `incoming` is what the peer will still write, one
      element per write; `sent` records every `send`, in order. */
  class Connection {
    var incoming: seq<string>
    var sent: seq<string>
    var open: bool

    constructor (script: seq<string>)
      ensures incoming == script && sent == [] && open
    {
      incoming := script;
      sent := [];
      open := true;
    }

    /** `connection.send(data)`, assumed to transmit every byte. */
    method Send(data: string)
      requires open
      modifies this
      ensures sent == old(sent) + [data]
      ensures incoming == old(incoming) && open
    {
      sent := sent + [data];
    }

    /** `connection.recv(bufsize)` */
    method Recv(bufsize: nat) returns (chunk: string)
      requires open && bufsize > 0
      modifies this
      ensures chunk == Receive(old(incoming), bufsize).chunk
      ensures incoming == Receive(old(incoming), bufsize).rest
      ensures sent == old(sent) && open
    {
      var r := Receive(incoming, bufsize);
      chunk := r.chunk;
      incoming := r.rest;
    }

    /** `connection.close()` */
    method Close()
      requires open
      modifies this
      ensures !open
      ensures sent == old(sent) && incoming == old(incoming)
    {
      open := false;
    }
  }

  /** The `n` bytes `os.urandom` yields when `from` bytes have been drawn
      before, out of the endless stream `noise`. */
  function Noise(noise: nat -> char, from: nat, n: nat): (bytes: string)
    ensures |bytes| == n
    ensures forall i :: 0 <= i < n ==> bytes[i] == noise(from + i)
  {
    seq(n, i requires 0 <= i => noise(from + i))
  }

  /** The random source behind `os.urandom`: an arbitrary byte stream `noise`
      and how much of it has been used. */
  class Entropy {
    const noise: nat -> char
    var drawn: nat

    constructor (noise: nat -> char)
      ensures this.noise == noise && drawn == 0
    {
      this.noise := noise;
      drawn := 0;
    }

    /** `os.urandom(n)` */
    method Urandom(n: nat) returns (bytes: string)
      modifies this
      ensures bytes == Noise(noise, old(drawn), n)
      ensures drawn == old(drawn) + n
    {
      bytes := Noise(noise, drawn, n);
      drawn := drawn + n;
    }
  }
}

=== FILE: runner.dfy ===
/** `run_test` (netbyte/testserver.py:39-95): one sub-test. It sends its
    header, then loops: send the prompt, take the pending initial message or
    read a chunk, buffer it and, when the chunk holds a newline, hand every
    complete line of the buffer to the handler until an end line is seen. */
module Runner {
  import opened Text
  import opened Termination
  import opened Framing
  import opened Net
  import opened Handlers

  /** How a sub-test finishes: an end line, with the bytes it hands on to the
      next sub-test (`remaining_message`), or `DisconnectedError`. */
  datatype Outcome = Ended(remaining: string) | Disconnected

  /** Everything a sub-test does: what it sends, the lines its handler gets,
      how it finishes, what the peer has still to deliver and how many random
      bytes have been drawn in all. */
  datatype Run = Run(sent: seq<string>, handled: seq<string>, outcome: Outcome, unread: seq<string>, drawn: nat)

  /** The header line 52 sends before the loop. */
  function Header(name: string): (s: string)
    ensures |s| > |name| && s[..|name|] == name
  {
    name + ":\nType 'end' to exit\n"
  }

  /** The prompt send of lines 58-59, if any. */
  function Asked(prompt: string): seq<string> {
    if prompt != "" then [prompt] else []
  }

  /** Lines 61-65: the handed-on `initial_message` while it is unused, and a
      `recv(4096)` after that. */
  function Next(initial: string, unread: seq<string>): Received
  {
    if initial != "" then Received(initial, unread) else Receive(unread, RecvSize)
  }

  /** The outer `while not done` loop from the state `messages`, `initial`
      (the unused `initial_message`), with `unread` still to come from the
      peer and `drawn` random bytes used so far: the prompt, the next chunk,
      and `DisconnectedError` when that chunk is empty. */
  function Iterations(h: Handler, prompt: string, messages: seq<string>, initial: string,
                      unread: seq<string>, noise: nat -> char, drawn: nat): (r: Run)
    decreases Backlog(unread), if initial == "" then 0 else 2
  {
    var got := Next(initial, unread);
    if got.chunk == "" then Run(Asked(prompt), [], Disconnected, got.rest, drawn)
    else AfterChunk(h, prompt, messages, got.chunk, got.rest, noise, drawn)
  }

  /** The rest of a turn once the non-empty chunk `message` is in, with `rest`
      still to come: buffer and scan it, handle the lines, and either finish
      with the handed-on bytes or loop again. */
  function AfterChunk(h: Handler, prompt: string, messages: seq<string>, message: string,
                      rest: seq<string>, noise: nat -> char, drawn: nat): (r: Run)
    decreases Backlog(rest), 1
  {
    var a := Absorb(messages, message);
    var replies := Replies(h, a.handled, noise, drawn);
    if a.done then Run(Asked(prompt) + replies.sent, a.handled, Ended(a.remaining), rest, replies.drawn)
    else
      var more := Iterations(h, prompt, a.messages, "", rest, noise, replies.drawn);
      Run(Asked(prompt) + replies.sent + more.sent, a.handled + more.handled, more.outcome, more.unread, more.drawn)
  }

  /** A whole sub-test: the header, then the loop from an empty buffer. */
  function TestRun(h: Handler, name: string, prompt: string, initial: string,
                   unread: seq<string>, noise: nat -> char, drawn: nat): Run
  {
    var r := Iterations(h, prompt, [], initial, unread, noise, drawn);
    Run([Header(name)] + r.sent, r.handled, r.outcome, r.unread, r.drawn)
  }

  // ---------------------------------------------------------------------------
  // What a sub-test promises.

  /** The handler only ever sees whole lines, none of them an end line. */
  lemma {:induction false} HandledAreLines(h: Handler, prompt: string, messages: seq<string>, initial: string,
                                           unread: seq<string>, noise: nat -> char, drawn: nat)
    ensures var r := Iterations(h, prompt, messages, initial, unread, noise, drawn);
      AllLines(r.handled) && NoneEnds(r.handled)
    decreases Backlog(unread), if initial == "" then 0 else 1
  {
    var got := Next(initial, unread);
    var message := got.chunk;
    var rest := got.rest;
    var r := Iterations(h, prompt, messages, initial, unread, noise, drawn);
    if message != "" {
      assert r == AfterChunk(h, prompt, messages, message, rest, noise, drawn);
      var a := Absorb(messages, message);
      HandledAreBufferLines(messages, message);
      if !a.done {
        var replies := Replies(h, a.handled, noise, drawn);
        HandledAreLines(h, prompt, a.messages, "", rest, noise, replies.drawn);
        var more := Iterations(h, prompt, a.messages, "", rest, noise, replies.drawn);
        assert r.handled == a.handled + more.handled;
        LinesJoin(a.handled, more.handled);
      } else {
        assert r.handled == a.handled;
      }
    } else {
      assert r.handled == [];
    }
  }

  lemma LinesJoin(xs: seq<string>, ys: seq<string>)
    requires AllLines(xs) && NoneEnds(xs) && AllLines(ys) && NoneEnds(ys)
    ensures AllLines(xs + ys) && NoneEnds(xs + ys)
  {
    var all := xs + ys;
    assert forall i :: 0 <= i < |all| ==> all[i] == if i < |xs| then xs[i] else ys[i - |xs|];
  }

  /** With no prompt, the Echo test sends back exactly the lines it handled. */
  lemma {:induction false} EchoLoopSendsHandled(messages: seq<string>, initial: string,
                                                unread: seq<string>, noise: nat -> char, drawn: nat)
    ensures var r := Iterations(Echo, "", messages, initial, unread, noise, drawn);
      r.sent == r.handled && r.drawn == drawn
    decreases Backlog(unread), if initial == "" then 0 else 1
  {
    var got := Next(initial, unread);
    var message := got.chunk;
    var rest := got.rest;
    var r := Iterations(Echo, "", messages, initial, unread, noise, drawn);
    assert Asked("") == [];
    if message != "" {
      var a := Absorb(messages, message);
      EchoRepliesAreLines(a.handled, noise, drawn);
      assert r == AfterChunk(Echo, "", messages, message, rest, noise, drawn);
      if !a.done {
        EchoLoopSendsHandled(a.messages, "", rest, noise, drawn);
        var more := Iterations(Echo, "", a.messages, "", rest, noise, drawn);
        assert r == Run([] + a.handled + more.sent, a.handled + more.handled, more.outcome, more.unread, more.drawn);
        EmptyThen(a.handled, more.sent);
      } else {
        assert r == Run([] + a.handled, a.handled, Ended(a.remaining), rest, drawn);
        EmptyThen(a.handled, []);
      }
    } else {
      assert r == Run([], [], Disconnected, rest, drawn);
    }
  }

  /** A closed peer ends the sub-test at once: after the prompt nothing is
      sent, no handler runs and no random byte is drawn. */
  lemma DisconnectBeforeHandling(h: Handler, prompt: string, messages: seq<string>,
                                 unread: seq<string>, noise: nat -> char, drawn: nat)
    requires unread == [] || unread[0] == ""
    ensures var r := Iterations(h, prompt, messages, "", unread, noise, drawn);
      r.outcome == Disconnected && r.sent == Asked(prompt) && r.handled == [] && r.drawn == drawn
  {
  }

  /** The handed-on message is used before anything is read: when it already
      completes the sub-test, the peer is not read at all, and otherwise it is
      processed exactly once, followed by reads only. */
  lemma InitialComesFirst(h: Handler, prompt: string, messages: seq<string>, initial: string,
                          unread: seq<string>, noise: nat -> char, drawn: nat)
    requires initial != ""
    ensures var r := Iterations(h, prompt, messages, initial, unread, noise, drawn);
      var a := Absorb(messages, initial); var replies := Replies(h, a.handled, noise, drawn);
      var first := Asked(prompt) + replies.sent;
      && |first| <= |r.sent| && r.sent[..|first|] == first
      && |a.handled| <= |r.handled| && r.handled[..|a.handled|] == a.handled
      && (a.done ==> r.unread == unread && r.outcome == Ended(a.remaining))
      && (!a.done ==> r.sent == first + Iterations(h, prompt, a.messages, "", unread, noise, replies.drawn).sent)
  {
    var r := Iterations(h, prompt, messages, initial, unread, noise, drawn);
    assert r == AfterChunk(h, prompt, messages, initial, unread, noise, drawn);
    var a := Absorb(messages, initial);
    var replies := Replies(h, a.handled, noise, drawn);
    var first := Asked(prompt) + replies.sent;
    if !a.done {
      var more := Iterations(h, prompt, a.messages, "", unread, noise, replies.drawn);
      assert r.sent == first + more.sent;
      assert r.sent[..|first|] == first;
      assert r.handled[..|a.handled|] == a.handled;
    }
  }

  /** A sub-test that ends passes on either nothing or the bytes after its
      end line in the last buffer, and never a lone trailing byte. */
  lemma {:induction false} HandsOnTail(h: Handler, prompt: string, messages: seq<string>, initial: string,
                                       unread: seq<string>, noise: nat -> char, drawn: nat)
    ensures var r := Iterations(h, prompt, messages, initial, unread, noise, drawn);
      r.outcome.Ended? && r.outcome.remaining != "" ==> |r.outcome.remaining| >= 2
    decreases Backlog(unread), if initial == "" then 0 else 1
  {
    var got := Next(initial, unread);
    var message := got.chunk;
    var rest := got.rest;
    if message != "" {
      var a := Absorb(messages, message);
      RemainderFollowsEndLine(messages, message);
      if !a.done {
        var replies := Replies(h, a.handled, noise, drawn);
        HandsOnTail(h, prompt, a.messages, "", rest, noise, replies.drawn);
      }
    }
  }

  // ---------------------------------------------------------------------------
  // `run_test` itself.

  /** The inner loop has handed `handled` to the handler and resumes at
      `start`: scanning the rest of the buffer completes the scan of all of it. */
  ghost predicate Resumes(full: string, handled: seq<string>, start: nat)
    requires start <= |full|
  {
    var s := ScanLines(full, start);
    ScanLines(full, 0) == Scan(handled + s.handled, s.done, s.next)
  }

  /** Where the inner loop stands: after an end line the scan is complete,
      otherwise the rest of the buffer is still to be scanned. */
  ghost predicate Progress(full: string, handled: seq<string>, start: nat, done: bool)
    requires start <= |full|
  {
    if done then ScanLines(full, 0) == Scan(handled, true, start) else Resumes(full, handled, start)
  }

  /** One step of the inner loop keeps its invariant: an end line completes
      the scan with what was handled so far, any other line joins `handled`. */
  lemma ResumesStep(full: string, handled: seq<string>, start: nat, end: int, line: string, done: bool)
    requires start <= |full| && Resumes(full, handled, start)
    requires end == Find(full, '\n', start) && end != -1 && line == full[start..end + 1]
    requires done == IsEndLine(line)
    ensures Progress(full, if done then handled else handled + [line], end + 1, done)
  {
    ScanStep(full, start);
    var rest := ScanLines(full, end + 1);
    assert handled + [] == handled;
    assert handled + ([line] + rest.handled) == (handled + [line]) + rest.handled;
  }

  /** With no newline left, the scan is complete and did not meet an end line. */
  lemma ResumesAtLastNewline(full: string, handled: seq<string>, start: nat)
    requires start <= |full| && Resumes(full, handled, start)
    requires Find(full, '\n', start) == -1
    ensures ScanLines(full, 0) == Scan(handled, false, start)
  {
    ScanStep(full, start);
    assert handled + [] == handled;
  }

  /** Lines 78-82: an end line sets `done`; any other line goes to the
      handler, whose replies then follow those to the lines `handled` before. */
  method HandleLine(conn: Connection, rng: Entropy, h: Handler, line: string,
                    ghost handled: seq<string>, ghost sent0: seq<string>, ghost drawn0: nat)
    returns (done: bool)
    requires conn.open
    requires conn.sent == sent0 + Replies(h, handled, rng.noise, drawn0).sent
    requires rng.drawn == Replies(h, handled, rng.noise, drawn0).drawn
    modifies conn, rng
    ensures done == IsEndLine(line)
    ensures var now := Replies(h, if done then handled else handled + [line], rng.noise, drawn0);
      conn.sent == sent0 + now.sent && rng.drawn == now.drawn
    ensures conn.incoming == old(conn.incoming) && conn.open
  {
    if IsEndLine(line) {
      done := true;
    } else {
      RepliesSnoc(h, handled, line, rng.noise, drawn0);
      DataHandler(conn, rng, h, line);
      done := false;
    }
  }

  /** Lines 74-85: walk the joined buffer `full` from the first newline on,
      handing each line to the handler, until the newlines run out or an end
      line is met. Returns `done` and the final `start_i`. */
  method HandleLines(conn: Connection, rng: Entropy, h: Handler, full: string) returns (done: bool, start: nat)
    requires conn.open
    modifies conn, rng
    ensures var s := ScanLines(full, 0); var replies := Replies(h, s.handled, rng.noise, old(rng.drawn));
      && done == s.done && start == s.next
      && conn.sent == old(conn.sent) + replies.sent && rng.drawn == replies.drawn
    ensures conn.incoming == old(conn.incoming) && conn.open
  {
    start := 0;
    done := false;
    var end := Find(full, '\n', start);
    ghost var handled: seq<string> := [];
    while end != -1 && !done
      invariant start <= |full| && end == Find(full, '\n', start)
      invariant Progress(full, handled, start, done)
      invariant conn.open && conn.incoming == old(conn.incoming)
      invariant conn.sent == old(conn.sent) + Replies(h, handled, rng.noise, old(rng.drawn)).sent
      invariant rng.drawn == Replies(h, handled, rng.noise, old(rng.drawn)).drawn
      decreases |full| - start
    {
      var line := full[start..end + 1];
      done := HandleLine(conn, rng, h, line, handled, old(conn.sent), old(rng.drawn));
      ResumesStep(full, handled, start, end, line, done);
      handled := if done then handled else handled + [line];
      start := end + 1;
      end := Find(full, '\n', start);
    }
    if !done {
      ResumesAtLastNewline(full, handled, start);
    }
  }

  /** Lines 67-93 for a non-empty chunk: buffer it and, when it holds a
      newline, handle the buffer's lines and keep or hand on what follows. */
  method Consume(conn: Connection, rng: Entropy, h: Handler, pending: seq<string>, message: string)
    returns (done: bool, messages: seq<string>, remaining: string)
    requires conn.open
    modifies conn, rng
    ensures var a := Absorb(pending, message); var replies := Replies(h, a.handled, rng.noise, old(rng.drawn));
      && done == a.done && messages == a.messages && remaining == a.remaining
      && conn.sent == old(conn.sent) + replies.sent && rng.drawn == replies.drawn
    ensures conn.incoming == old(conn.incoming) && conn.open
  {
    messages := pending + [message];
    remaining := "";
    done := false;
    if '\n' in message {
      var full := Concat(messages);
      var start;
      done, start := HandleLines(conn, rng, h, full);
      if start < |message| - 1 {
        if done {
          remaining := full[start..];
        } else {
          messages := [full[start..]];
        }
      } else {
        messages := [];
      }
    }
  }

  /** The state of the outer loop continues the run that started it: what has
      been sent so far followed by what the loop still sends is what the whole
      run sends, and it finishes the same way. */
  ghost predicate Continues(goal: Run, sent0: seq<string>, sent: seq<string>, now: Run) {
    && sent + now.sent == sent0 + goal.sent
    && now.outcome == goal.outcome && now.unread == goal.unread && now.drawn == goal.drawn
  }

  /** A turn whose read comes back empty finishes the run as a disconnect,
      right after the prompt. */
  lemma TurnDisconnects(goal: Run, sent0: seq<string>, sent: seq<string>, h: Handler, prompt: string,
                        messages: seq<string>, initial: string, unread: seq<string>, noise: nat -> char, drawn: nat)
    requires Continues(goal, sent0, sent, Iterations(h, prompt, messages, initial, unread, noise, drawn))
    requires Next(initial, unread).chunk == ""
    ensures sent + Asked(prompt) == sent0 + goal.sent && goal.outcome == Disconnected
    ensures goal.unread == Next(initial, unread).rest && goal.drawn == drawn
  {
  }

  /** A turn that meets an end line finishes the run, handing on the rest. */
  lemma TurnEnds(goal: Run, sent0: seq<string>, sent: seq<string>, h: Handler, prompt: string,
                 messages: seq<string>, initial: string, unread: seq<string>, noise: nat -> char, drawn: nat)
    requires Continues(goal, sent0, sent, Iterations(h, prompt, messages, initial, unread, noise, drawn))
    requires Next(initial, unread).chunk != "" && Absorb(messages, Next(initial, unread).chunk).done
    ensures var a := Absorb(messages, Next(initial, unread).chunk); var replies := Replies(h, a.handled, noise, drawn);
      && sent + Asked(prompt) + replies.sent == sent0 + goal.sent && goal.outcome == Ended(a.remaining)
      && goal.unread == Next(initial, unread).rest && goal.drawn == replies.drawn
  {
    var a := Absorb(messages, Next(initial, unread).chunk);
    var replies := Replies(h, a.handled, noise, drawn);
    var now := Iterations(h, prompt, messages, initial, unread, noise, drawn);
    assert now == AfterChunk(h, prompt, messages, Next(initial, unread).chunk, Next(initial, unread).rest, noise, drawn);
    assert now.sent == Asked(prompt) + replies.sent;
  }

  /** Any other turn leaves a state that still continues the run. */
  lemma TurnGoesOn(goal: Run, sent0: seq<string>, sent: seq<string>, h: Handler, prompt: string,
                   messages: seq<string>, initial: string, unread: seq<string>, noise: nat -> char, drawn: nat)
    requires Continues(goal, sent0, sent, Iterations(h, prompt, messages, initial, unread, noise, drawn))
    requires Next(initial, unread).chunk != "" && !Absorb(messages, Next(initial, unread).chunk).done
    ensures var a := Absorb(messages, Next(initial, unread).chunk); var replies := Replies(h, a.handled, noise, drawn);
      Continues(goal, sent0, sent + Asked(prompt) + replies.sent,
                Iterations(h, prompt, a.messages, "", Next(initial, unread).rest, noise, replies.drawn))
  {
    var a := Absorb(messages, Next(initial, unread).chunk);
    var replies := Replies(h, a.handled, noise, drawn);
    var more := Iterations(h, prompt, a.messages, "", Next(initial, unread).rest, noise, replies.drawn);
    var now := Iterations(h, prompt, messages, initial, unread, noise, drawn);
    assert now == AfterChunk(h, prompt, messages, Next(initial, unread).chunk, Next(initial, unread).rest, noise, drawn);
    assert now.sent == Asked(prompt) + replies.sent + more.sent;
    assert sent + now.sent == (sent + Asked(prompt) + replies.sent) + more.sent;
  }

  /** `run_test(test_name, prompt, data_handler, initial_message)`: the sends,
      reads and random draws of the sub-test are those of `TestRun`, and so is
      the result, `remaining_message` or the disconnect. */
  method RunTest(conn: Connection, rng: Entropy, name: string, prompt: string, h: Handler, initialMessage: string)
    returns (outcome: Outcome)
    requires conn.open
    modifies conn, rng
    ensures var t := TestRun(h, name, prompt, initialMessage, old(conn.incoming), rng.noise, old(rng.drawn));
      && outcome == t.outcome
      && conn.sent == old(conn.sent) + t.sent
      && conn.incoming == t.unread
      && rng.drawn == t.drawn
    ensures conn.open
  {
    conn.Send(Header(name));
    ghost var sent0 := conn.sent;
    ghost var goal := Iterations(h, prompt, [], initialMessage, conn.incoming, rng.noise, rng.drawn);
    assert old(conn.sent) + TestRun(h, name, prompt, initialMessage, old(conn.incoming), rng.noise, old(rng.drawn)).sent
      == sent0 + goal.sent;
    var messages: seq<string> := [];
    var remaining := "";
    var initial := initialMessage;
    var done := false;
    while !done
      invariant conn.open
      invariant !done ==> LineFree(messages)
      invariant !done ==> Continues(goal, sent0, conn.sent, Iterations(h, prompt, messages, initial, conn.incoming, rng.noise, rng.drawn))
      invariant done ==> (conn.sent == sent0 + goal.sent && goal.outcome == Ended(remaining)
        && conn.incoming == goal.unread && rng.drawn == goal.drawn)
      decreases Backlog(conn.incoming), if initial == "" then 0 else 1
    {
      ghost var unreadBefore := conn.incoming;
      ghost var initialBefore := initial;
      ghost var got := Next(initial, conn.incoming);
      ghost var pending := messages;
      ghost var sentBefore := conn.sent;
      ghost var drawnBefore := rng.drawn;
      if prompt != "" {
        conn.Send(prompt);
      }
      assert conn.sent == sentBefore + Asked(prompt);
      var message;
      if initial != "" {
        message := initial;
        initial := "";
      } else {
        message := conn.Recv(RecvSize);
      }
      assert message == got.chunk && conn.incoming == got.rest;
      if message == "" {
        TurnDisconnects(goal, sent0, sentBefore, h, prompt, pending, initialBefore, unreadBefore, rng.noise, drawnBefore);
        return Disconnected;
      }
      PendingStaysLineFree(messages, message);
      done, messages, remaining := Consume(conn, rng, h, messages, message);
      ghost var a := Absorb(pending, message);
      ghost var replies := Replies(h, a.handled, rng.noise, drawnBefore);
      assert conn.sent == sentBefore + Asked(prompt) + replies.sent && rng.drawn == replies.drawn;
      assert initial == "" && messages == a.messages && done == a.done;
      if done {
        TurnEnds(goal, sent0, sentBefore, h, prompt, pending, initialBefore, unreadBefore, rng.noise, drawnBefore);
      } else {
        TurnGoesOn(goal, sent0, sentBefore, h, prompt, pending, initialBefore, unreadBefore, rng.noise, drawnBefore);
      }
    }
    outcome := Ended(remaining);
  }
}

=== FILE: session.dfy ===
/** `handle_connection` (netbyte/testserver.py:33-141): the banner, the three
    sub-tests in their fixed order with each one's leftover bytes handed to the
    next, a notice about bytes left over after the last one, and the closing
    message. */
module Session {
  import opened Text
  import opened Framing
  import opened Net
  import opened Handlers
  import opened Runner

  /** The first send of every session (line 37); `version` is `VERSION`. */
  function Banner(version: string): string {
    "Netbyte Test Server v" + version + "\n"
  }

  const HexPrompt: string := "Number of bytes to send:"
  const CountPrompt: string := "Bytes to count:"
  /** Sent before the leftover bytes themselves, with no newline added. */
  const UnexpectedNotice: string := "Received unexpected data after all tests ended: "
  const Closing: string := "Closing connection to test server\n"

  /** The session either runs to its closing message or stops when a sub-test
      meets a closed peer (`DisconnectedError` leaving `handle_connection`). */
  datatype Ending = Completed | Dropped

  /** What a session sends, how it ends, the bytes left after the last
      sub-test, what the peer has still to deliver and the random bytes drawn. */
  datatype Conversation = Conversation(sent: seq<string>, ending: Ending, leftover: string, unread: seq<string>, drawn: nat)

  /** The whole of `handle_connection` against a peer whose writes are
      `incoming` and a random source at position `drawn`. */
  function Converse(version: string, incoming: seq<string>, noise: nat -> char, drawn: nat): Conversation
  {
    var echo := TestRun(Echo, "Echo Test", "", "", incoming, noise, drawn);
    var opening := [Banner(version)] + echo.sent;
    if echo.outcome.Disconnected? then Conversation(opening, Dropped, "", echo.unread, echo.drawn)
    else
      var hex := TestRun(Hex, "Hex Test", HexPrompt, echo.outcome.remaining, echo.unread, noise, echo.drawn);
      if hex.outcome.Disconnected? then Conversation(opening + hex.sent, Dropped, "", hex.unread, hex.drawn)
      else
        var count := TestRun(ByteCount, "Byte Count Test", CountPrompt, hex.outcome.remaining, hex.unread, noise, hex.drawn);
        var tests := opening + hex.sent + count.sent;
        if count.outcome.Disconnected? then Conversation(tests, Dropped, "", count.unread, count.drawn)
        else
          var rest := count.outcome.remaining;
          var notice := if rest != "" then [UnexpectedNotice + rest] else [];
          Conversation(tests + notice + [Closing], Completed, rest, count.unread, count.drawn)
  }

  /** `handle_connection(connection, addr)`: it sends and reads exactly what
      `Converse` says, and closes the connection only when the session
      completes; a disconnect leaves the socket to the caller. */
  method HandleConnection(conn: Connection, rng: Entropy, version: string) returns (ending: Ending)
    requires conn.open
    modifies conn, rng
    ensures var c := Converse(version, old(conn.incoming), rng.noise, old(rng.drawn));
      && ending == c.ending
      && conn.sent == old(conn.sent) + c.sent
      && conn.incoming == c.unread
      && rng.drawn == c.drawn
    ensures conn.open <==> ending == Dropped
  {
    ghost var noise := rng.noise;
    ghost var c := Converse(version, conn.incoming, noise, rng.drawn);
    ghost var sent0 := conn.sent;
    ghost var echo := TestRun(Echo, "Echo Test", "", "", conn.incoming, noise, rng.drawn);
    conn.Send(Banner(version));
    var outcome := RunTest(conn, rng, "Echo Test", "", Echo, "");
    AppendAssoc(sent0, [Banner(version)], echo.sent);
    if outcome.Disconnected? {
      return Dropped;
    }
    ghost var hex := TestRun(Hex, "Hex Test", HexPrompt, outcome.remaining, conn.incoming, noise, rng.drawn);
    outcome := RunTest(conn, rng, "Hex Test", HexPrompt, Hex, outcome.remaining);
    AppendAssoc(sent0, [Banner(version)] + echo.sent, hex.sent);
    if outcome.Disconnected? {
      return Dropped;
    }
    ghost var count := TestRun(ByteCount, "Byte Count Test", CountPrompt, outcome.remaining, conn.incoming, noise, rng.drawn);
    outcome := RunTest(conn, rng, "Byte Count Test", CountPrompt, ByteCount, outcome.remaining);
    ghost var tests := [Banner(version)] + echo.sent + hex.sent + count.sent;
    AppendAssoc(sent0, [Banner(version)] + echo.sent + hex.sent, count.sent);
    if outcome.Disconnected? {
      return Dropped;
    }
    var rest := outcome.remaining;
    ghost var notice: seq<string> := [];
    if rest != "" {
      var info := UnexpectedNotice + rest;
      conn.Send(info);
      notice := [info];
    }
    AppendAssoc(sent0, tests, notice);
    conn.Send(Closing);
    conn.Close();
    AppendAssoc(sent0, tests + notice, [Closing]);
    return Completed;
  }

  // ---------------------------------------------------------------------------
  // What a session promises.

  /** Whatever the peer does, the banner comes first and the Echo test's
      header second. */
  lemma BannerFirst(version: string, incoming: seq<string>, noise: nat -> char, drawn: nat)
    ensures var c := Converse(version, incoming, noise, drawn);
      |c.sent| >= 2 && c.sent[0] == Banner(version) && c.sent[1] == Header("Echo Test")
  {
  }

  /** A completed session ends with the closing message. Just before it comes
      the leftover notice, carrying the leftover bytes, when there are any. */
  lemma ClosingLast(version: string, incoming: seq<string>, noise: nat -> char, drawn: nat)
    ensures var c := Converse(version, incoming, noise, drawn);
      c.ending == Completed ==>
        && |c.sent| >= 3 && c.sent[|c.sent| - 1] == Closing
        && (c.leftover != "" ==> c.sent[|c.sent| - 2] == UnexpectedNotice + c.leftover)
  {
  }

  /** The sub-tests run Echo, then Hex, then Byte Count: in a completed
      session each one's header follows everything the previous one sent,
      each starts from what the previous one handed on, and the leftover is
      what Byte Count handed on. Besides the banner, the three sub-tests and
      the closing message, exactly one message is sent when bytes are left
      over and none otherwise. */
  lemma TestsInOrder(version: string, incoming: seq<string>, noise: nat -> char, drawn: nat)
    ensures var c := Converse(version, incoming, noise, drawn);
      var echo := TestRun(Echo, "Echo Test", "", "", incoming, noise, drawn);
      c.ending == Completed ==>
        echo.outcome.Ended? &&
        var hex := TestRun(Hex, "Hex Test", HexPrompt, echo.outcome.remaining, echo.unread, noise, echo.drawn);
        && hex.outcome.Ended?
        && var count := TestRun(ByteCount, "Byte Count Test", CountPrompt, hex.outcome.remaining, hex.unread, noise, hex.drawn);
        && count.outcome.Ended?
        && c.leftover == count.outcome.remaining
        && |c.sent| == 2 + |echo.sent| + |hex.sent| + |count.sent| + (if c.leftover != "" then 1 else 0)
        && c.sent[1 + |echo.sent|] == Header("Hex Test")
        && c.sent[1 + |echo.sent| + |hex.sent|] == Header("Byte Count Test")
  {
  }

  /** A sub-test that meets a closed peer ends the session: the later
      sub-tests do not run, nothing is left over, and neither the notice nor
      the closing message is sent. */
  lemma DropStopsSession(version: string, incoming: seq<string>, noise: nat -> char, drawn: nat)
    ensures var c := Converse(version, incoming, noise, drawn);
      var echo := TestRun(Echo, "Echo Test", "", "", incoming, noise, drawn);
      c.ending == Dropped ==>
        && c.leftover == ""
        && (echo.outcome.Disconnected? ==> c.sent == [Banner(version)] + echo.sent)
        && (echo.outcome.Ended? ==>
              var hex := TestRun(Hex, "Hex Test", HexPrompt, echo.outcome.remaining, echo.unread, noise, echo.drawn);
              && (hex.outcome.Disconnected? ==> c.sent == [Banner(version)] + echo.sent + hex.sent)
              && (hex.outcome.Ended? ==>
                    var count := TestRun(ByteCount, "Byte Count Test", CountPrompt, hex.outcome.remaining, hex.unread, noise, hex.drawn);
                    && count.outcome.Disconnected?
                    && c.sent == [Banner(version)] + echo.sent + hex.sent + count.sent))
  {
  }

  /** Leftover bytes, when there are any, are never a single byte: line 87
      keeps a remainder only when at least two bytes follow the end line. */
  lemma LeftoverNeverOneByte(version: string, incoming: seq<string>, noise: nat -> char, drawn: nat)
    ensures var c := Converse(version, incoming, noise, drawn);
      c.leftover != "" ==> |c.leftover| >= 2
  {
    var echo := TestRun(Echo, "Echo Test", "", "", incoming, noise, drawn);
    if echo.outcome.Ended? {
      var hex := TestRun(Hex, "Hex Test", HexPrompt, echo.outcome.remaining, echo.unread, noise, echo.drawn);
      if hex.outcome.Ended? {
        HandsOnTail(ByteCount, CountPrompt, [], hex.outcome.remaining, hex.unread, noise, hex.drawn);
      }
    }
  }

  /** A sub-test whose handed-on message (or first read, when nothing is
      handed on) starts with an end line ends in that turn, after only its
      prompt, handing on the rest of that chunk. */
  lemma EndsOnFirstChunk(h: Handler, prompt: string, initial: string, message: string,
                         unread: seq<string>, rest: seq<string>, noise: nat -> char, drawn: nat)
    requires Next(initial, unread) == Received(message, rest)
    requires |message| >= 4 && message[..4] == "end\n"
    ensures Iterations(h, prompt, [], initial, unread, noise, drawn)
      == Run(Asked(prompt), [], Ended(if 4 < |message| - 1 then message[4..] else ""), rest, drawn)
  {
    EndLineFirst(message);
    assert Iterations(h, prompt, [], initial, unread, noise, drawn) == AfterChunk(h, prompt, [], message, rest, noise, drawn);
    assert Asked(prompt) + [] == Asked(prompt);
  }

  /** The Echo test of that session: ended by the first line of the write. */
  lemma EchoEndsFirst(script: seq<string>, noise: nat -> char, drawn: nat)
    requires script == ["end\nend\nend\n"]
    ensures TestRun(Echo, "Echo Test", "", "", script, noise, drawn)
      == Run([Header("Echo Test")], [], Ended("end\nend\n"), [], drawn)
  {
    var m1 := script[0];
    assert m1[..4] == "end\n" && m1[4..] == "end\nend\n";
    assert Receive(script, RecvSize) == Received(m1, []);
    EndsOnFirstChunk(Echo, "", "", m1, script, [], noise, drawn);
    assert Asked("") == [];
  }

  /** The Hex test of that session: ended by its handed-on message. */
  lemma HexEndsSecond(noise: nat -> char, drawn: nat)
    ensures TestRun(Hex, "Hex Test", HexPrompt, "end\nend\n", [], noise, drawn)
      == Run([Header("Hex Test"), HexPrompt], [], Ended("end\n"), [], drawn)
  {
    var m2 := "end\nend\n";
    assert m2[..4] == "end\n" && m2[4..] == "end\n";
    EndsOnFirstChunk(Hex, HexPrompt, m2, m2, [], [], noise, drawn);
    assert Asked(HexPrompt) == [HexPrompt];
  }

  /** The Byte Count test of that session: ended by its handed-on message,
      with nothing left over. */
  lemma CountEndsThird(noise: nat -> char, drawn: nat)
    ensures TestRun(ByteCount, "Byte Count Test", CountPrompt, "end\n", [], noise, drawn)
      == Run([Header("Byte Count Test"), CountPrompt], [], Ended(""), [], drawn)
  {
    var m3 := "end\n";
    assert m3[..4] == "end\n";
    EndsOnFirstChunk(ByteCount, CountPrompt, m3, m3, [], [], noise, drawn);
    assert Asked(CountPrompt) == [CountPrompt];
  }

  /** An Echo test whose client writes `hi` and `end` at once sends back `hi`
      after its header and ends with nothing handed on. */
  lemma EchoesThenEnds(script: seq<string>, noise: nat -> char, drawn: nat)
    requires script == ["hi\nend\n"]
    ensures TestRun(Echo, "Echo Test", "", "", script, noise, drawn)
      == Run([Header("Echo Test"), "hi\n"], ["hi\n"], Ended(""), [], drawn)
  {
    var m := script[0];
    assert Receive(script, RecvSize) == Received(m, []);
    LineThenEndLine();
    EchoRepliesAreLines(["hi\n"], noise, drawn);
    var r := Iterations(Echo, "", [], "", script, noise, drawn);
    assert r == AfterChunk(Echo, "", [], m, [], noise, drawn);
    assert Asked("") == [];
    assert r == Run([] + ["hi\n"], ["hi\n"], Ended(""), [], drawn);
    EmptyThen(["hi\n"], []);
  }

  /** An Echo test whose client writes `hi\nab` and then `c\nend\n` echoes
      `hi\n` after the first read and, once the second read completes the
      pending `ab`, echoes `abc\n` and ends with nothing handed on. */
  lemma EchoesAcrossReads(script: seq<string>, noise: nat -> char, drawn: nat)
    requires script == ["hi\nab", "c\nend\n"]
    ensures TestRun(Echo, "Echo Test", "", "", script, noise, drawn)
      == Run([Header("Echo Test"), "hi\n", "abc\n"], ["hi\n", "abc\n"], Ended(""), [], drawn)
  {
    var m1 := script[0];
    var m2 := script[1];
    assert script[1..] == [m2];
    assert Receive(script, RecvSize) == Received(m1, [m2]);
    assert [m2][1..] == [];
    assert Receive([m2], RecvSize) == Received(m2, []);
    CarriesPartialLine();
    FinishesPartialLine();
    EchoRepliesAreLines(["hi\n"], noise, drawn);
    EchoRepliesAreLines(["abc\n"], noise, drawn);
    assert Asked("") == [];
    var more := Iterations(Echo, "", ["ab"], "", [m2], noise, drawn);
    assert more == AfterChunk(Echo, "", ["ab"], m2, [], noise, drawn);
    assert more == Run([] + ["abc\n"], ["abc\n"], Ended(""), [], drawn);
    EmptyThen(["abc\n"], []);
    var r := Iterations(Echo, "", [], "", script, noise, drawn);
    assert r == AfterChunk(Echo, "", [], m1, [m2], noise, drawn);
    assert r == Run([] + ["hi\n"] + more.sent, ["hi\n"] + more.handled, more.outcome, more.unread, more.drawn);
    EmptyThen(["hi\n"], more.sent);
    assert r.sent == ["hi\n", "abc\n"];
    assert [Header("Echo Test")] + r.sent == [Header("Echo Test"), "hi\n", "abc\n"];
  }

  /** A client that types `end` three times in one write ends all three
      sub-tests: the first end line ends Echo, and each later one reaches the
      next sub-test as its handed-on message, so nothing else is read. */
  lemma OneWriteEndsEverything(version: string, script: seq<string>, noise: nat -> char, drawn: nat)
    requires script == ["end\nend\nend\n"]
    ensures Converse(version, script, noise, drawn)
      == Conversation([Banner(version), Header("Echo Test"), Header("Hex Test"), HexPrompt,
                       Header("Byte Count Test"), CountPrompt, Closing], Completed, "", [], drawn)
  {
    EchoEndsFirst(script, noise, drawn);
    HexEndsSecond(noise, drawn);
    CountEndsThird(noise, drawn);
    var c := Converse(version, script, noise, drawn);
    var tests := [Banner(version)] + [Header("Echo Test")] + [Header("Hex Test"), HexPrompt] + [Header("Byte Count Test"), CountPrompt];
    assert c.sent == tests + [] + [Closing];
    SixInOrder([Banner(version)], [Header("Echo Test")], [Header("Hex Test"), HexPrompt], [Header("Byte Count Test"), CountPrompt]);
  }

  lemma SixInOrder<T>(a: seq<T>, b: seq<T>, c: seq<T>, d: seq<T>)
    requires |a| == 1 && |b| == 1 && |c| == 2 && |d| == 2
    ensures a + b + c + d == [a[0], b[0], c[0], c[1], d[0], d[1]]
  {
  }
}

=== FILE: termination.dfy ===
/** The pattern that ends a sub-test: `^\s*end\s*` compiled with IGNORECASE and
    applied with `match`. `match` anchors only at the start and the trailing
    `\s*` may match nothing, so a line ends a sub-test exactly when, after its
    leading whitespace, it starts with the three letters `end` in any case. */
module Termination {
  import opened Text

  /** The bytes at `k`, `k + 1`, `k + 2` spell `end`, ignoring case. */
  predicate KeywordAt(line: string, k: nat)
    requires k + 3 <= |line|
  {
    (line[k] == 'e' || line[k] == 'E')
    && (line[k + 1] == 'n' || line[k + 1] == 'N')
    && (line[k + 2] == 'd' || line[k + 2] == 'D')
  }

  /** `end_pattern.match(line[i:])` succeeds: skip whitespace, then look for the keyword. */
  predicate EndFrom(line: string, i: nat)
    requires i <= |line|
    decreases |line| - i
  {
    if i < |line| && IsSpace(line[i]) then EndFrom(line, i + 1)
    else i + 3 <= |line| && KeywordAt(line, i)
  }

  /** `end_pattern.match(line)` succeeds. */
  predicate IsEndLine(line: string) {
    EndFrom(line, 0)
  }

  /** The regular expression matches with its `\s*` taking the first `k` bytes. */
  predicate EndAt(line: string, k: nat) {
    k + 3 <= |line|
    && (forall i :: 0 <= i < k ==> IsSpace(line[i]))
    && KeywordAt(line, k)
  }

  lemma {:induction false} EndFromIff(line: string, i: nat)
    requires i <= |line|
    requires forall j :: 0 <= j < i ==> IsSpace(line[j])
    ensures EndFrom(line, i) <==> exists k: nat :: i <= k && EndAt(line, k)
    decreases |line| - i
  {
    if i < |line| && IsSpace(line[i]) {
      EndFromIff(line, i + 1);
      if k: nat :| i <= k && EndAt(line, k) {
        assert k != i;
      }
    } else {
      if EndFrom(line, i) {
        assert EndAt(line, i);
      }
      if k: nat :| i <= k && EndAt(line, k) {
        assert k == i;
      }
    }
  }

  /** The greedy reading used by `IsEndLine` agrees with the regular
      expression's backtracking semantics: the line matches iff some amount of
      leading whitespace is followed by `end`. */
  lemma EndLineIff(line: string)
    ensures IsEndLine(line) <==> exists k: nat :: EndAt(line, k)
  {
    EndFromIff(line, 0);
  }

  /** Only a line's start matters: whatever follows the keyword is ignored, so
      `ending` ends a test just like `end`. */
  lemma {:induction false} EndLineIgnoresTail(line: string, tail: string)
    requires IsEndLine(line)
    ensures IsEndLine(line + tail)
  {
    EndLineIff(line);
    var k: nat :| EndAt(line, k);
    assert EndAt(line + tail, k);
    EndLineIff(line + tail);
  }

  /** A line whose first non-blank byte is not `e`/`E` never ends a test. */
  lemma {:induction false} EndLineNeedsLeadingE(line: string, k: nat)
    requires k < |line|
    requires forall i :: 0 <= i < k ==> IsSpace(line[i])
    requires line[k] != 'e' && line[k] != 'E' && !IsSpace(line[k])
    ensures !IsEndLine(line)
  {
    EndLineIff(line);
  }

  /** The pattern is a prefix test: `ending` ends a sub-test, `send` does not. */
  lemma PrefixNotWord()
    ensures IsEndLine("ending\n") && !IsEndLine("send\n")
  {
    assert EndAt("ending\n", 0);
    EndLineIff("ending\n");
    EndLineNeedsLeadingE("send\n", 0);
  }

  /** Case and leading whitespace do not matter. */
  lemma CaseAndBlanks()
    ensures IsEndLine("end\n") && IsEndLine("END\t\n") && IsEndLine("  eNd\n")
  {
    assert EndAt("end\n", 0);
    EndLineIff("end\n");
    assert EndAt("END\t\n", 0);
    EndLineIff("END\t\n");
    assert EndAt("  eNd\n", 2);
    EndLineIff("  eNd\n");
  }
}

=== FILE: text.dfy ===
/** Byte-string helpers that the test server takes from Python 2's `str`:
    `find`, `''.join`, `'%d' %` and `int()`. One `char` stands for one byte. */
module Text {

  datatype Option<T> = None | Some(value: T)

  /** A line as the server sees it: bytes ending in one newline and holding no other. */
  predicate IsLine(s: string) {
    |s| > 0 && s[|s| - 1] == '\n' && forall i :: 0 <= i < |s| - 1 ==> s[i] != '\n'
  }

  predicate NoNewline(s: string) {
    forall i :: 0 <= i < |s| ==> s[i] != '\n'
  }

  /** `s.find(c, from)`: the first index at or after `from` holding `c`, or -1. */
  function Find(s: string, c: char, from: nat): (r: int)
    ensures r == -1 || (from <= r < |s| && s[r] == c)
    ensures r == -1 ==> forall i :: from <= i < |s| ==> s[i] != c
    ensures r != -1 ==> forall i :: from <= i < r ==> s[i] != c
    decreases |s| - from
  {
    if from >= |s| then -1
    else if s[from] == c then from
    else Find(s, c, from + 1)
  }

  /** `''.join(parts)` */
  function Concat(parts: seq<string>): string
  {
    if parts == [] then "" else parts[0] + Concat(parts[1..])
  }

  lemma ConcatCons(x: string, parts: seq<string>)
    ensures Concat([x] + parts) == x + Concat(parts)
  {
    assert ([x] + parts)[1..] == parts;
  }

  lemma {:induction false} ConcatSnoc(parts: seq<string>, x: string)
    ensures Concat(parts + [x]) == Concat(parts) + x
    decreases |parts|
  {
    if parts == [] {
      assert parts + [x] == [x] + [];
      ConcatCons(x, []);
    } else {
      assert parts + [x] == [parts[0]] + (parts[1..] + [x]);
      ConcatCons(parts[0], parts[1..] + [x]);
      ConcatSnoc(parts[1..], x);
      ConcatCons(parts[0], parts[1..]);
      assert [parts[0]] + parts[1..] == parts;
    }
  }

  // ---------------------------------------------------------------------------
  // Whitespace, as Python 2's `\s` and `int()` understand it for byte strings.

  predicate IsSpace(c: char) {
    c == ' ' || c == '\t' || c == '\n' || c == '\r' || c == '\U{000B}' || c == '\U{000C}'
  }

  /** The input without its leading whitespace. */
  function StripLeading(s: string): (t: string)
    ensures |t| <= |s|
  {
    if |s| > 0 && IsSpace(s[0]) then StripLeading(s[1..]) else s
  }

  /** The input without its trailing whitespace. */
  function StripTrailing(s: string): (t: string)
    ensures |t| <= |s|
  {
    if |s| > 0 && IsSpace(s[|s| - 1]) then StripTrailing(s[..|s| - 1]) else s
  }

  /** Stripping leading whitespace leaves a suffix of the input, which starts
      with a non-blank byte, and removes only blanks. */
  lemma {:induction false} StripLeadingSuffix(s: string)
    ensures var t := StripLeading(s);
      && t == s[|s| - |t|..]
      && (|t| > 0 ==> !IsSpace(t[0]))
      && forall i :: 0 <= i < |s| - |t| ==> IsSpace(s[i])
    decreases |s|
  {
    if |s| > 0 && IsSpace(s[0]) {
      StripLeadingSuffix(s[1..]);
      assert s[1..][|s| - 1 - |StripLeading(s)|..] == s[|s| - |StripLeading(s)|..];
    }
  }

  /** Stripping trailing whitespace leaves a prefix of the input, which ends
      with a non-blank byte, and removes only blanks. */
  lemma {:induction false} StripTrailingPrefix(s: string)
    ensures var t := StripTrailing(s);
      && t == s[..|t|]
      && (|t| > 0 ==> !IsSpace(t[|t| - 1]))
      && forall i :: |t| <= i < |s| ==> IsSpace(s[i])
    decreases |s|
  {
    if |s| > 0 && IsSpace(s[|s| - 1]) {
      StripTrailingPrefix(s[..|s| - 1]);
    }
  }

  // ---------------------------------------------------------------------------
  // Decimal numerals.

  predicate IsDigit(c: char) {
    '0' <= c <= '9'
  }

  predicate AllDigits(s: string) {
    forall i :: 0 <= i < |s| ==> IsDigit(s[i])
  }

  function DigitChar(d: nat): (c: char)
    requires d < 10
    ensures IsDigit(c) && c as int - '0' as int == d
  {
    ['0', '1', '2', '3', '4', '5', '6', '7', '8', '9'][d]
  }

  /** The value of a string of decimal digits, most significant first. */
  function DigitsValue(s: string): nat
    requires AllDigits(s)
  {
    if s == [] then 0
    else DigitsValue(s[..|s| - 1]) * 10 + (s[|s| - 1] as int - '0' as int)
  }

  /** `'%d' % n` for a non-negative `n`: shortest decimal numeral of `n`. */
  function NatToString(n: nat): (s: string)
    ensures |s| > 0 && AllDigits(s) && DigitsValue(s) == n
    ensures s[0] == '0' ==> s == "0"
    decreases n
  {
    if n < 10 then [DigitChar(n)]
    else
      var prefix := NatToString(n / 10);
      var s := prefix + [DigitChar(n % 10)];
      assert s[..|s| - 1] == prefix;
      s
  }

  /** `int(s)` for the forms the server meets: surrounding whitespace, an
      optional sign, then one or more decimal digits. Anything else fails. */
  function ParseInt(s: string): (r: Option<int>)
  {
    var t := StripTrailing(StripLeading(s));
    if |t| > 0 && (t[0] == '+' || t[0] == '-') then
      var d := t[1..];
      if |d| > 0 && AllDigits(d) then
        var v: int := DigitsValue(d);
        Some(if t[0] == '-' then -v else v)
      else None
    else if |t| > 0 && AllDigits(t) then Some(DigitsValue(t))
    else None
  }

  /** What `int()` reads back from a numeral a client would type, newline and all. */
  lemma {:induction false} ParseIntOfNumeral(n: nat)
    ensures ParseInt(NatToString(n) + "\n") == Some(n)
  {
    ParseIntOfDigitLine(NatToString(n));
  }

  lemma ParseIntOfDigitLine(d: string)
    requires |d| > 0 && AllDigits(d)
    ensures ParseInt(d + "\n") == Some(DigitsValue(d))
  {
    var s := d + "\n";
    assert IsDigit(d[0]) && IsDigit(d[|d| - 1]);
    StripNewlineAfter(d);
    assert StripLeading(s) == s;
    assert StripTrailing(StripLeading(s)) == d;
  }

  /** A trailing newline is stripped, and nothing before a non-blank last byte. */
  lemma StripNewlineAfter(d: string)
    requires |d| > 0 && !IsSpace(d[0]) && !IsSpace(d[|d| - 1])
    ensures StripLeading(d + "\n") == d + "\n" && StripTrailing(d + "\n") == d
  {
    var s := d + "\n";
    assert s[0] == d[0];
    assert s[..|s| - 1] == d;
  }

  /** `int()` succeeds only on inputs holding at least one digit. */
  lemma ParseIntNeedsDigit(s: string)
    ensures ParseInt(s).Some? ==> exists i :: 0 <= i < |s| && IsDigit(s[i])
  {
    if ParseInt(s).Some? {
      var u := StripLeading(s);
      var t := StripTrailing(u);
      StripLeadingSuffix(s);
      StripTrailingPrefix(u);
      assert t == s[|s| - |u|..][..|t|];
      var k := if t[0] == '+' || t[0] == '-' then 1 else 0;
      assert IsDigit(t[k]);
      assert s[|s| - |u| + k] == t[k];
    }
  }

  /** `int()` fails on input whose first byte is neither blank, a sign nor a
      digit: a letter of either case, for one. */
  lemma ParseIntRejectsLetter(s: string)
    requires |s| > 0 && !IsSpace(s[0]) && !IsDigit(s[0]) && s[0] != '+' && s[0] != '-'
    ensures ParseInt(s) == None
  {
    assert StripLeading(s) == s;
    var t := StripTrailing(s);
    StripTrailingPrefix(s);
    if |t| > 0 {
      assert t[0] == s[0];
    }
  }

  // ---------------------------------------------------------------------------
  // Sequence facts, proved once on their own.

  /** Appending is associative. */
  lemma AppendAssoc<T>(a: seq<T>, b: seq<T>, c: seq<T>)
    ensures (a + b) + c == a + (b + c)
  {
  }

  /** Two adjacent slices make up the slice that spans both. */
  lemma SliceJoin<T>(s: seq<T>, a: nat, b: nat, c: nat)
    requires a <= b <= c <= |s|
    ensures s[a..c] == s[a..b] + s[b..c]
  {
  }

  /** A prefix of a non-empty sequence is its head followed by a prefix of its tail. */
  lemma TakeCons<T>(s: seq<T>, n: nat)
    requires n < |s|
    ensures s[..n + 1] == [s[0]] + s[1..][..n]
  {
  }

  /** The empty sequence in front changes nothing. */
  lemma EmptyThen<T>(xs: seq<T>, ys: seq<T>)
    ensures [] + xs + ys == xs + ys && [] + xs == xs
  {
  }
}
